=== FILE: README.md ===
# march-inventory core, modelled in Dafny

This project models the sequential core of the march-inventory backend, a
NestJS service that keeps a shop's stock, its inventory types and brands,
and its users' login sessions. It covers five parts:

- **Inventory store** (`InventoryStore`, inventory_service.dfy). Three
  tables: inventory, inventoryType and brandType. Each is a map from row
  id to row, held by the class `InventoryService`. An upsert first refuses
  any name already used by a row, deleted or not. It then updates the row
  the request names, or creates a new row. Delete is a soft delete that
  sets `deleted`. The list queries return live rows only; the inventory
  listing also filters by name, sorts newest first and pages.
- **Sessions** (`Sessions`, auth_service.dfy). A users table in the class
  `AuthService`. `login` stores a fresh device id and a refresh token on
  the user's row, overwriting the ones stored before. `tokenExpire` renews
  an access token only from the stored refresh token. `signOut` clears
  both fields of the user whose id the caller passes; it does not compare
  that id with the user the caller's token names.
- **Guard** (`Guard`, auth_guard.dfy). `UserAuthGuard.canActivate` as a
  function: bearer header, token verification, the role rule, and a match
  between the token's device id and the id the device-id endpoint reports.
  It allows the request or denies it with 401.
- **Device binding** (`DeviceBinding`, device_binding.dfy). This module
  connects the guard to the users table through the device-id endpoint. It
  proves that the guard admits a token exactly when the token's device id
  is the one stored for its user. After a second login or a sign out no
  user holds the earlier device id, so access tokens carrying it are
  refused. The earlier refresh token stops renewing access when it differs
  from the one stored now, as it does when the logins fall in different
  seconds.
- **CSV helpers and the upload transformer** (`Csv`, csv.dfy; `UploadDto`,
  upload_dto.dfy). Formula-injection stripping, CSV parsing (with the
  quote-aware comma split), CSV writing, and the mapping of uploaded rows
  to inventory records. The module `Strings` (strings.dfy) holds the
  JavaScript string operations they need: `split`, `join`, `indexOf`,
  `replace` and `includes`.

Optional inputs that the code treats differently when left out and when
sent as `null` are `Common.Field` values (`Absent`, `Null`, `Given`); the
rest are `Common.Option` values.

Functions and values passed in stand for signing, verifying and decoding
JSON Web Tokens, bcrypt hashing and comparison, uuid generation, the
database's generated ids and clock, and the HTTP call to the device-id
endpoint. A generated uuid or row id appears as a parameter, and a
precondition says it is fresh. No law relating these functions is assumed
anywhere. Where a lemma needs a token to verify to the claims signed into
it, that one fact is a hypothesis of the lemma.

Where the code and its description differ, the model follows the code:

- `tokenExpire` writes the user's name under the claim `username`, while
  `login` writes it under `userName` (`Tokens.AccessClaims` has both).
- A user made by `createUser` has no group. `login` reads the group's name
  and fails with 403 for such a user.

## Model

| member | source | states |
|---|---|---|
| InventoryStore.InventoryService.GetInventories | src/services/Inventory/Inventory.service.ts:24-47 | a `null` search is a 500 "Internal Error" (Prisma refuses `contains: null`), and only it; otherwise the page is the window at `offset` (default 0) of at most `limit` (default 20) rows of a newest-first enumeration of exactly the live rows whose name contains `search` (search left out: every live row) |
| InventoryStore.InventoryPageFacts | src/services/Inventory/Inventory.service.ts:30-40 | every row of a page is live and matches the search; the page is ordered by `createdAt` descending; it holds at most `limit` rows, and exactly `limit` when enough matching rows remain after the offset |
| InventoryStore.EnumerationSize | src/services/Inventory/Inventory.service.ts:30-40 | a listing that enumerates a set of rows has as many entries as the set |
| InventoryStore.NewestFirstListing | src/services/Inventory/Inventory.service.ts:37-39 | every set of rows has an enumeration ordered newest first, so the ordered query always has an answer |
| InventoryStore.ListLive | src/services/Inventory/Inventory.service.ts:68-72 | the result lists every live row of the table exactly once, each with its id, and nothing else |
| InventoryStore.InventoryService.GetInventoryTypes | src/services/Inventory/Inventory.service.ts:65-79 | exactly the live inventory types, each once |
| InventoryStore.InventoryService.GetBrandTypes | src/services/Inventory/Inventory.service.ts:97-111 | exactly the live brands, each once |
| InventoryStore.FindUnique | src/services/Inventory/Inventory.service.ts:52-56 | the row under that id, soft-deleted or not; nothing when the id is absent |
| InventoryStore.InventoryService.GetInventory | src/services/Inventory/Inventory.service.ts:49-63 | the inventory row with that id whether or not it is deleted, or nothing |
| InventoryStore.InventoryService.GetInventoryType | src/services/Inventory/Inventory.service.ts:81-95 | the inventory type with that id whether or not it is deleted, or nothing |
| InventoryStore.InventoryService.GetBrandType | src/services/Inventory/Inventory.service.ts:113-127 | the brand with that id whether or not it is deleted, or nothing |
| InventoryStore.InventoryService.DeleteInventory | src/services/Inventory/Inventory.service.ts:129-149 | sets `deleted` on exactly that row and returns its id; a missing id is a 500 "Internal Error" with nothing changed; the other tables are untouched; names stay distinct |
| InventoryStore.InventoryService.DeleteInventoryType | src/services/Inventory/Inventory.service.ts:150-170 | the same soft delete on the inventoryType table |
| InventoryStore.InventoryService.DeleteBrandType | src/services/Inventory/Inventory.service.ts:171-191 | the same soft delete on the brandType table |
| InventoryStore.SoftDeleteHidesOnlyThatRow | src/services/Inventory/Inventory.service.ts:132-142 | after a soft delete the live rows are the old live rows minus that one; the row is still found by id, now deleted; every other row is unchanged |
| InventoryStore.SoftDeleteIdempotent | src/services/Inventory/Inventory.service.ts:129-191 | deleting the same row twice leaves the table as deleting it once |
| InventoryStore.SoftDeletedRowsReserveNames | src/services/Inventory/Inventory.service.ts:209-219 | a soft delete changes no taken name, so the duplicate check still refuses a deleted row's name |
| InventoryStore.InventoryService.UpsertInventory | src/services/Inventory/Inventory.service.ts:193-259 | a name held by any row (deleted rows and the row being updated included) is a 400 "Name is duplicated" with nothing changed; an id naming a row updates only name, description, deleted (false), createdBy and updatedBy (= createdBy), where a left-out description or createdBy keeps the stored value and a `null` one writes NULL, and returns that id; otherwise exactly one live row with updatedBy = createdBy is added under the generated id, which is returned; distinct names stay distinct |
| InventoryStore.InventoryService.UpsertInventoryType | src/services/Inventory/Inventory.service.ts:260-311 | the same duplicate check, update and create on the inventoryType table |
| InventoryStore.InventoryService.UpsertBrandType | src/services/Inventory/Inventory.service.ts:313-364 | the same duplicate check, update and create on the brandType table |
| InventoryStore.AddRowKeepsNamesDistinct | src/services/Inventory/Inventory.service.ts:209-248 | writing a row whose name no row holds keeps pairwise-distinct names pairwise distinct, one request at a time (see "Left out" on concurrency) |
| InventoryStore.UpdateKeepsStockColumns | src/services/Inventory/Inventory.service.ts:240-247 | an update by upsert keeps amount, price, type, brand, expiry date and creation time, sets the name, and makes the row live; a given createdBy sets both authors, a `null` one clears both, a left-out one keeps both; a given description replaces the stored one, a `null` one clears it, a left-out one keeps it |
| InventoryStore.CreatedRowIsLive | src/services/Inventory/Inventory.service.ts:225-236 | a created row is live, carries the requested name, has updatedBy equal to createdBy, and stores description and createdBy exactly when they are given |
| InventoryStore.Window | src/services/Inventory/Inventory.service.ts:35-36 | the window holds the listing's entries from `skip` on, at most `take` of them, and none when `skip` is past the end |
| Sessions.AuthService.CreateUser | src/services/authguard/auth.service.ts:22-53 | a taken username is a 409 "username already exists" with nothing changed; otherwise exactly one user is added with the hashed password, role "1", authors "system", and no group or session; usernames stay unique when requests do not interleave |
| Sessions.AuthService.ValidLogin | src/services/authguard/auth.service.ts:55-94 | success names a user with that username whose stored hash matches the password; every failure is 403 "wrong username or password"; with unique usernames it succeeds exactly when such a user exists |
| Sessions.AuthService.Login | src/services/authguard/auth.service.ts:96-140 | fails with 403 and changes nothing exactly when no user with that name has a matching password and a group; on success it overwrites only that user's device id (with the fresh one) and refresh token (signed over the user id and the issue time), and returns an access token signed over the stored device id and user id |
| Sessions.LoginClaims | src/services/authguard/auth.service.ts:102-116 | the login token's claims carry the given device id, the user id and the group name as role |
| Sessions.AuthService.TokenExpire | src/services/authguard/auth.service.ts:142-216 | succeeds exactly when the refresh token verifies, names a user, equals that user's stored refresh token, and the user has a group; otherwise 401; the table is never changed |
| Sessions.RefreshedClaims | src/services/authguard/auth.service.ts:187-203 | the renewed token's claims carry the device id stored now, the user id and the group name |
| Sessions.AuthService.SignOut | src/services/authguard/auth.service.ts:218-249 | clears the refresh token and device id of the user the caller names, whoever the access token belongs to, and returns the id; an unknown user is a 500 "Internal Server Error" with nothing changed |
| Sessions.DeviceIdLookup | src/services/authguard/auth.service.ts:251-265 | the stored device id of the named user; a 500 when no id is given or the user does not exist |
| Sessions.AuthService.GetDeviceId | src/services/authguard/auth.service.ts:251-265 | answers as `DeviceIdLookup` on the current table, without changing it |
| Sessions.AuthService.VerifyAccessToken | src/services/authguard/auth.service.ts:275-291 | success exactly when the token verifies |
| Guard.GetRequestHeader | src/services/authguard/auth.guard.ts:25-30 | through `get` when the request has it; otherwise the request's own property when truthy, else the `headers` entry; nothing for a missing request |
| Guard.BearerToken | src/services/authguard/auth.guard.ts:77-83 | a token exists exactly when the Authorization header is present and non-empty; it is the header with the first "Bearer " removed |
| Strings.IndexOf | src/services/authguard/auth.guard.ts:83 | the first position where the pattern occurs: it occurs there and at no earlier position; nothing when it occurs nowhere |
| Strings.ReplaceLeadingPrefix | src/services/authguard/auth.guard.ts:83 | removing the prefix a string starts with leaves the rest |
| Guard.BearerRequest | src/services/authguard/auth.guard.ts:126-131 | the request a client sends as `Bearer <token>` yields exactly that token to the guard |
| Guard.ValidateDeviceId | src/services/authguard/auth.guard.ts:117-141 | a missing or empty device claim or a failed fetch is 401; otherwise true exactly when the fetched id equals the claim |
| Guard.CanActivate | src/services/authguard/auth.guard.ts:70-116 | every refusal is 401 "Unauthorized" (never false); a missing or empty header is refused whatever the token functions do |
| Guard.CanActivateExactly | src/services/authguard/auth.guard.ts:77-110 | the guard allows exactly when the header is present, the token verifies, the role rule (`RolePasses`, auth.guard.ts:88-98) passes, the device claim is non-empty, and the fetched id equals it |
| DeviceBinding.DeviceGuardClaims | src/services/authguard/device.guard.ts:67-96 | the claims the device-id endpoint accepts come from a verified bearer token with a non-empty device id |
| DeviceBinding.DeviceEndpoint | src/services/authguard/auth.controller.ts:9-15 | a fetched answer is the device id stored for the user the verified token names |
| DeviceBinding.GuardAdmitsExactlyBoundTokens | src/services/authguard/auth.guard.ts:132-136 | with the real endpoint behind it, the guard admits exactly the tokens that verify, pass the role rule, and carry the device id stored for their user |
| DeviceBinding.StaleDeviceRefused | src/services/authguard/auth.guard.ts:132-136 | a token whose user now has another device id stored is refused |
| DeviceBinding.UnheldDeviceRefused | src/services/authguard/auth.guard.ts:132-136 | a token whose device id no user holds is refused |
| DeviceBinding.LoginTokenAdmitted | src/services/authguard/auth.service.ts:102-127 | a login token that verifies to its claims is admitted while its device id is stored and its role fits |
| DeviceBinding.RefreshedTokenAdmitted | src/services/authguard/auth.service.ts:187-203 | a renewed token that verifies to its claims is admitted while its role fits, because it carries the stored device id |
| DeviceBinding.LoginTwice | src/services/authguard/auth.service.ts:117-127 | after two logins with the same credentials the second succeeds whenever the first did, for the same user, the second device id is stored, and no user holds the first device id; when the two refresh tokens differ, the first one (which names the user) no longer renews access |
| DeviceBinding.LoginThenSignOut | src/services/authguard/auth.service.ts:230-241 | after login and sign out no user holds the login's device id, and the login's refresh token no longer renews access |
| UploadDto.TransformUploadCsv | src/services/Inventory/inventory.dto.ts:4-54 | one record per input row, in input order, each carrying the row's id as `csvId` |
| UploadDto.UploadRecordFields | src/services/Inventory/inventory.dto.ts:32-51 | every record is live, written by the user, stamped with the shop and the file, and copies amount, type, brand, prices, reorder level, sku, favorite, expiry date and description unchanged, and carries the row's packed size (`PackSize`) as `size` |
| UploadDto.UploadNameDecodes | src/services/Inventory/inventory.dto.ts:33 | when neither the row's name nor the shop id contains '\|', the stored name splits on '\|' back into the two |
| UploadDto.PackSizeDecodes | src/services/Inventory/inventory.dto.ts:27-31 | when no given dimension contains '\|', the packed size (`PackSize`, the template at inventory.dto.ts:27-31) splits on '\|' back into width, length, height and weight, each left-out dimension as '0' and each `null` one as "null" |
| UploadDto.MissingSizePacksZeros | src/services/Inventory/inventory.dto.ts:27-31 | a row without a size, or with every dimension left out, packs to "0\|0\|0\|0"; a `null` dimension packs to "null" |
| Csv.SanitizeCsv | src/common/helpers/csv.ts:21-32 | the result is a suffix of the input; every dropped character is one of = + - @; the result is empty or starts with another character |
| Csv.SanitizeKeepsSafe | src/common/helpers/csv.ts:22-27 | an empty string, or one not starting with = + - @, comes back unchanged |
| Csv.SanitizeDropsMaximalRun | src/common/helpers/csv.ts:24-31 | the result is what remains after the whole leading run of = + - @ |
| Csv.SanitizeIdempotent | src/common/helpers/csv.ts:21-32 | sanitizing twice equals sanitizing once |
| Strings.SplitWhere | src/common/helpers/csv.ts:5 | a split with a look-ahead condition yields at least one part, and joining the parts gives back the text |
| Strings.SplitJoin | src/common/helpers/csv.ts:2 | splitting the join of parts without the separator gives back the parts |
| Strings.SplitCount | src/common/helpers/csv.ts:2 | a text splits into one more line than it has line breaks |
| Csv.SplitFields | src/common/helpers/csv.ts:5-6 | the fields of a line are at least one, and joined with commas give back the line |
| Csv.FilterCapturedCommas | src/common/helpers/csv.ts:5-6 | dropping the captured "," items from the regex split (`DropCommaItems`, the `.filter` at csv.ts:6 and 11) leaves exactly the fields |
| Csv.NoFieldIsComma | src/common/helpers/csv.ts:10-11 | no field of the quote-aware split is a lone comma, so the filter removes only separators |
| Csv.ZipRecord | src/common/helpers/csv.ts:12-14 | the record's keys are exactly the headers zipped so far |
| Csv.CsvRecords | src/common/helpers/csv.ts:1-19 | one record per line after the first |
| Csv.CsvToJson | src/common/helpers/csv.ts:1-19 | the outer loop builds exactly the records of `CsvRecords` |
| Csv.SplitLine | src/common/helpers/csv.ts:9-11 | the filtered regex split of a line is exactly its quote-aware fields |
| Csv.ZipLine | src/common/helpers/csv.ts:8-14 | the inner loop builds the object zipping every header with the line's field at the same position |
| Csv.CsvRecordAt | src/common/helpers/csv.ts:7-15 | record i pairs the header line's fields with the fields of line i + 1 |
| Csv.CsvRecordCount | src/common/helpers/csv.ts:2 | the number of records is the number of line breaks |
| Csv.ZipRecordAt | src/common/helpers/csv.ts:12-14 | a header not repeated later maps to field j of the line, or to nothing when the line is shorter |
| Csv.CsvRecordField | src/common/helpers/csv.ts:4-14 | in record i, header j maps to field j of line i + 1, or to nothing when that line has fewer fields |
| Csv.JsonToCsv | src/common/helpers/csv.ts:35-43 | no output exactly when there are neither headers nor rows (the code throws reading the first row) |
| Csv.SplitFieldsOfCsvLine | src/common/helpers/csv.ts:36-38 | a written line of quoted values without quotes inside splits back into exactly the quoted values, commas inside included |
| Csv.JsonToCsvLines | src/common/helpers/csv.ts:36-42 | when no header, key or value holds a line break (quotes allowed), there are rows + 1 lines: the quoted headers (given, or the first row's keys), then each row's quoted values |
| Csv.CsvRoundTrip | src/common/helpers/csv.ts:1-43 | parsing written CSV gives, for each row, the record mapping each quoted header to the row's quoted value in that column |
| Csv.QuoteCountQuoted | src/common/helpers/csv.ts:36 | a quoted value without inner quotes holds two quote characters |
| Csv.CsvLineEvenQuotes | src/common/helpers/csv.ts:36 | a written line of quoted values without inner quotes holds an even number of quote characters |
| Csv.PlainLineHasNoBreak | src/common/helpers/csv.ts:36-42 | a line of values without line breaks contains no line break |

## Left out

- Concurrent requests. Each service call is one atomic step. The duplicate-name check and the write of an upsert (`findFirst` then `upsert`), and the username check and the insert of `createUser` (`findMany` then `create`), are separate storage calls, so distinct names and unique usernames hold only when requests do not interleave.
- Logging, NestJS decorators, dependency injection, and the GraphQL context plumbing (`getRequest`, `getGraphQLEndpointContext`). The guard takes the request object as input.
- JSON Web Token signing, verification and decoding, bcrypt, and uuid. They are functions and fresh values passed in. A refresh token is signed over the user id and the issue time, which also fixes its expiry; the expiry itself is not checked, and a verification function answers for one moment.
- The HTTP call in `validateDeviceId` is a function from the token to a failure or a response body. Outside development its URL is empty, so the request goes to an empty URL; whether the HTTP client then throws or resolves it against some default host is the client's business. The function covers both outcomes.
- The module holding the guard's role names is not part of this model. The "any" role is a parameter.
- `testRedis`: it only reads the clock.
- Database failures other than the missing rows named above (connection loss, constraint errors). Foreign keys from inventory rows to types and brands are not checked.
- Prisma's `contains` is modelled as a case-sensitive substring test. Negative `limit` or `offset` values are not modelled; both are natural numbers.
- The inventory query's parameters as generated for GraphQL have no `offset` field (they have `pageNo`), so through the API `offset` is always absent. The model keeps `offset` as an optional input.
- InventoryStore.Row: `updatedAt` and the columns the upsert never writes (sku, size, price for members, reorder level, favorite) are not part of the row. `createdAt` is the clock value passed to an upsert that creates.
- The body of `upsertInventory`'s catch rethrows whatever error occurred. Only the duplicate-name error is modelled, as it is the only one the code raises itself.
- Sessions.AuthService.ValidLogin: when several users share a username, the store's pick among them is modelled as an arbitrary choice. The exact success condition is stated for unique usernames, which `CreateUser` maintains.
- Sessions.User: database `null` and JavaScript `undefined` are both modelled as an absent value.
- Optional inputs where `null` and `undefined` act alike (`limit`, `offset`, an upsert's `id`, the columns only a create writes, and the upload's copied columns) stay `Option` values.
- Csv.SanitizeCsv: only string inputs are modelled. Other falsy values (`null`, `undefined`, `0`) also give "", and non-string truthy values are not modelled.
- Csv.JsonToCsv: values are taken already rendered as text (numbers are not rendered). Property order is taken as given, without JavaScript's rule that integer-like keys come first. The headers and each row's values are written independently, as in the code, so a row's columns need not line up with the headers.
- Csv.CsvLineEvenQuotes: stated for values without inner quotes only; a value such as `a"b` is written as `"a"b"`, with an odd number of quotes, and the parse of such a line is not described.
- Csv.CsvRecords: a record is a map from header to field, so every header becomes a key. A JavaScript object assigned under the header `__proto__` calls the prototype setter instead and gets no such key; that quirk is not modelled, and `ZipRecordAt` and `CsvRecordField` claim the key for it too.
- Csv.CsvRoundTrip: stated for explicit, non-empty headers, for values and headers without double quotes or line breaks, and for rows with at least one value. With no headers the header line is "", which reads back as the single header "". Quotes are not removed when parsing, so parsed keys and values keep their quotes.
- UploadDto.PackSize: a size dimension is a JavaScript `number`; the model takes the text a template literal renders it to and does not model number formatting.
- Guard.GetRequestHeader: a header value that is not a string (an array) is not modelled.

=== FILE: auth_guard.dfy ===
/** `UserAuthGuard.canActivate`: a request passes when it carries a bearer
    access token that verifies, whose role fits the guard's role, and whose
    device id is the one the device-id endpoint reports for the token's
    user. Every failure is the same 401. Token verification and the HTTP
    call to the endpoint are functions passed in. */
module Guard {
  import opened Common
  import opened Strings
  import opened Tokens

  /** The request object the guard reads headers from: an Express request
      answers through `get`; otherwise the key is looked up on the object
      itself and then in its `headers`. */
  datatype Request = Request(
    get: Option<map<string, string>>,
    fields: map<string, string>,
    headers: Option<map<string, string>>)

  function Lookup(m: map<string, string>, key: string): (v: Option<string>)
    ensures v.Some? <==> key in m
  {
    if key in m then Some(m[key]) else None
  }

  /** `getRequestHeader`. A missing request has no headers. */
  function GetRequestHeader(request: Option<Request>, key: string): (v: Option<string>)
    ensures request.None? ==> v.None?
    ensures request.Some? && request.value.get.Some? ==> v == Lookup(request.value.get.value, key)
    ensures request.Some? && request.value.get.None? && Truthy(Lookup(request.value.fields, key)) ==>
      v == Lookup(request.value.fields, key)
    ensures request.Some? && request.value.get.None? && !Truthy(Lookup(request.value.fields, key)) ==>
      v == if request.value.headers.Some? then Lookup(request.value.headers.value, key) else None
  {
    if request.None? then None
    else if request.value.get.Some? then Lookup(request.value.get.value, key)
    else
      var own := Lookup(request.value.fields, key);
      if Truthy(own) then own
      else if request.value.headers.Some? then Lookup(request.value.headers.value, key)
      else None
  }

  const AuthorizationHeader := "Authorization"
  const BearerPrefix := "Bearer "

  /** The access token of a request: its Authorization header with the first
      "Bearer " removed; none when the header is missing or empty. */
  function BearerToken(request: Option<Request>): (t: Option<string>)
    ensures t.Some? <==> Truthy(GetRequestHeader(request, AuthorizationHeader))
  {
    var header := GetRequestHeader(request, AuthorizationHeader);
    if Truthy(header) then Some(ReplaceFirst(header.value, BearerPrefix, "")) else None
  }

  /** What the HTTP call to the device-id endpoint yields: a failure, or the
      response body (no body when the user has no device id). */
  datatype DeviceFetch = FetchFailed | Fetched(data: Option<string>)

  /** `validateDeviceId`: the token's device id must be present and the
      endpoint must answer with exactly that id; a failed call is 401, a
      different answer is `false`. */
  function ValidateDeviceId(deviceIdToken: Option<string>, fetched: DeviceFetch): (r: Result<bool>)
    ensures r.Ok? <==> Truthy(deviceIdToken) && fetched.Fetched?
    ensures r == Ok(true) <==> Truthy(deviceIdToken) && fetched == Fetched(deviceIdToken)
    ensures r.Err? ==> r.error == HttpError(StatusUnauthorized, "Unauthorized")
  {
    if !Truthy(deviceIdToken) then Err(HttpError(StatusUnauthorized, "Unauthorized"))
    else match fetched
      case FetchFailed => Err(HttpError(StatusUnauthorized, "Unauthorized"))
      case Fetched(data) => Ok(data == deviceIdToken)
  }

  /** The role rule: a guard for the "any" role admits any token with a
      role; any other guard needs the token's role to equal its own (a guard
      without a role admits tokens without one). */
  predicate RolePasses(guardRole: Option<string>, anyRole: string, tokenRole: Option<string>)
  {
    (guardRole == Some(anyRole) && Truthy(tokenRole)) || guardRole == tokenRole
  }

  /** `canActivate` resolves to true or throws 401; it never yields false. */
  datatype Decision = Allow | Deny(error: HttpError)

  function CanActivate(guardRole: Option<string>, anyRole: string, request: Option<Request>,
                       verify: string -> Option<AccessClaims>, fetch: string -> DeviceFetch): (d: Decision)
    ensures d.Deny? ==> d.error == HttpError(StatusUnauthorized, "Unauthorized")
    ensures BearerToken(request).None? ==> d.Deny?
  {
    var header := GetRequestHeader(request, AuthorizationHeader);
    if !Truthy(header) then Deny(HttpError(StatusUnauthorized, "Unauthorized"))
    else
      var accessToken := ReplaceFirst(header.value, BearerPrefix, "");
      match verify(accessToken)
      case None => Deny(HttpError(StatusUnauthorized, "Unauthorized"))
      case Some(claims) =>
        if !RolePasses(guardRole, anyRole, claims.role) then Deny(HttpError(StatusUnauthorized, "Unauthorized"))
        else match ValidateDeviceId(claims.deviceId, fetch(accessToken))
          case Ok(true) => Allow
          case _ => Deny(HttpError(StatusUnauthorized, "Unauthorized"))
  }

  /** Every check the guard makes, side by side. */
  predicate AllChecksPass(guardRole: Option<string>, anyRole: string, request: Option<Request>,
                          verify: string -> Option<AccessClaims>, fetch: string -> DeviceFetch)
  {
    && BearerToken(request).Some?
    && var token := BearerToken(request).value;
    && verify(token).Some?
    && RolePasses(guardRole, anyRole, verify(token).value.role)
    && Truthy(verify(token).value.deviceId)
    && fetch(token) == Fetched(verify(token).value.deviceId)
  }

  /** The guard admits a request exactly when all its checks pass. */
  lemma CanActivateExactly(guardRole: Option<string>, anyRole: string, request: Option<Request>,
                           verify: string -> Option<AccessClaims>, fetch: string -> DeviceFetch)
    ensures CanActivate(guardRole, anyRole, request, verify, fetch) == Allow
            <==> AllChecksPass(guardRole, anyRole, request, verify, fetch)
  {
    if BearerToken(request).Some? {
      var token := BearerToken(request).value;
      if verify(token).Some? && RolePasses(guardRole, anyRole, verify(token).value.role) {
        var v := ValidateDeviceId(verify(token).value.deviceId, fetch(token));
        assert v == Ok(true) <==> Truthy(verify(token).value.deviceId) && fetch(token) == Fetched(verify(token).value.deviceId);
      }
    }
  }

  /** The request a client sends with a token: `Authorization: Bearer <token>`.
      The guard reads back exactly that token. */
  function BearerRequest(token: string): (request: Option<Request>)
    ensures BearerToken(request) == Some(token)
  {
    ReplaceLeadingPrefix(BearerPrefix, token);
    Some(Request(Some(map[AuthorizationHeader := BearerPrefix + token]), map[], None))
  }
}

=== FILE: auth_service.dfy ===
/** `AuthService`: user creation, login with a per-login device id, access
    token renewal from a refresh token, sign out, and the device-id lookup
    the guard calls back into. The users table is a map from user id to
    row. Hashing, password comparison, token signing and verification, and
    uuid generation are functions and values passed in. */
module Sessions {
  import opened Common
  import opened Tokens

  /** The user's group with the names of the functions granted to it. */
  datatype Group = Group(name: string, functions: seq<string>)

  datatype User = User(
    username: string,
    password: string,            // the bcrypt hash
    role: string,
    groups: Option<Group>,
    deviceId: Option<string>,
    refreshToken: Option<string>,
    createdBy: string,
    updatedBy: string)

  /** What `login` returns; `tokenExpire` fills `accessToken` only. */
  datatype Token = Token(accessToken: string, refreshToken: Option<string>,
                         userId: Option<string>, username: Option<string>)

  type Users = map<string, User>

  const UsernameExists := HttpError(StatusConflict, "username already exists")
  const WrongCredentials := HttpError(StatusForbidden, "wrong username or password")
  const NotAuthorized := HttpError(StatusUnauthorized, "Unauthorized")
  const ServerError := HttpError(StatusInternalError, "Internal Server Error")

  /** The value `createUser` gives a new user's role. */
  const DefaultRole := "1"
  const SystemAuthor := "system"

  predicate UsernameTaken(users: Users, username: string)
  {
    exists id :: id in users && users[id].username == username
  }

  ghost predicate UniqueUsernames(users: Users)
  {
    forall a, b :: a in users && b in users && users[a].username == users[b].username ==> a == b
  }

  /** The user can log in with these credentials: right name, the password
      matches the stored hash, and the user belongs to a group (login reads
      the group's name and fails without one). */
  predicate CanLogIn(user: User, username: string, password: string, compare: (string, string) -> bool)
  {
    user.username == username && compare(password, user.password) && user.groups.Some?
  }

  /** The access-token payload `login` signs. */
  function LoginClaims(id: string, user: User, deviceId: string): (c: AccessClaims)
    requires user.groups.Some?
    ensures c.deviceId == Some(deviceId) && c.userId == Some(id) && c.role == Some(user.groups.value.name)
  {
    AccessClaims(Some(user.groups.value.name), user.groups.value.functions, Some(deviceId), Some(id),
                 Some(user.username), None)
  }

  /** The access-token payload `tokenExpire` signs: the device id stored for
      the user, whatever it is now. */
  function RefreshedClaims(id: string, user: User): (c: AccessClaims)
    requires user.groups.Some?
    ensures c.deviceId == user.deviceId && c.userId == Some(id) && c.role == Some(user.groups.value.name)
  {
    AccessClaims(Some(user.groups.value.name), user.groups.value.functions, user.deviceId, Some(id),
                 None, Some(user.username))
  }

  /** A refresh token renews access when it verifies, names a user, and is
      the refresh token stored for that user; the user must have a group. */
  predicate RefreshAccepted(users: Users, refreshToken: string, refreshId: string -> Option<string>)
  {
    && refreshId(refreshToken).Some?
    && refreshId(refreshToken).value in users
    && users[refreshId(refreshToken).value].refreshToken == Some(refreshToken)
    && users[refreshId(refreshToken).value].groups.Some?
  }

  /** `getDiviceId`: the stored device id of the user, an error when there
      is no such user or no id was given. */
  function DeviceIdLookup(users: Users, userId: Option<string>): (r: Result<Option<string>>)
    ensures r.Ok? <==> userId.Some? && userId.value in users
    ensures r.Ok? ==> r.value == users[userId.value].deviceId
    ensures r.Err? ==> r.error == ServerError
  {
    if userId.Some? && userId.value in users then Ok(users[userId.value].deviceId) else Err(ServerError)
  }

  class AuthService {
    var users: Users
    /** Every device id handed out so far; a uuid is never handed out twice. */
    ghost var issuedDeviceIds: set<string>

    ghost predicate Valid()
      reads this
    {
      && UniqueUsernames(users)
      && forall id :: id in users && users[id].deviceId.Some? ==> users[id].deviceId.value in issuedDeviceIds
    }

    constructor (users: Users)
      requires UniqueUsernames(users)
      ensures Valid() && this.users == users
    {
      this.users := users;
      issuedDeviceIds := set id | id in users && users[id].deviceId.Some? :: users[id].deviceId.value;
    }

    /** `createUser`: refuses a taken username with 409; otherwise stores the
        hashed password under the id the store generates, role "1", written
        by "system", with no group and no session. */
    method CreateUser(username: string, password: string, hash: string -> string, newId: string)
      returns (r: Result<string>)
      requires newId !in users
      requires Valid()
      modifies this
      ensures Valid() && issuedDeviceIds == old(issuedDeviceIds)
      ensures r.Err? <==> UsernameTaken(old(users), username)
      ensures r.Err? ==> r.error == UsernameExists && users == old(users)
      ensures r.Ok? ==> r.value == newId && users == old(users)[newId :=
        User(username, hash(password), DefaultRole, None, None, None, SystemAuthor, SystemAuthor)]
    {
      var check := exists id :: id in users && users[id].username == username;
      if check {
        return Err(UsernameExists);
      }
      users := users[newId := User(username, hash(password), DefaultRole, None, None, None, SystemAuthor, SystemAuthor)];
      r := Ok(newId);
    }

    /** `validLogin`: the user with that name whose password matches. With
        distinct usernames it succeeds exactly when such a user exists. */
    method ValidLogin(username: string, password: string, compare: (string, string) -> bool)
      returns (r: Result<string>)
      ensures r.Ok? ==> r.value in users && users[r.value].username == username
                        && compare(password, users[r.value].password)
      ensures r.Err? ==> r.error == WrongCredentials
      ensures UniqueUsernames(users) ==>
        (r.Ok? <==> exists id :: id in users && users[id].username == username && compare(password, users[id].password))
    {
      var found := exists id :: id in users && users[id].username == username;
      if !found {
        return Err(WrongCredentials);
      }
      var id :| id in users && users[id].username == username;
      if !compare(password, users[id].password) {
        return Err(WrongCredentials);
      }
      r := Ok(id);
    }

    /** `login`: on good credentials stores a fresh device id and the new
        refresh token on the user's row, overwriting the ones stored before,
        and returns an access token signed over the stored device id and the
        user's id. The refresh token is signed over the user's id and the
        time of issue (`now`), which fixes its expiry too. Any failure is 403
        and changes nothing. */
    method Login(username: string, password: string, compare: (string, string) -> bool,
                 deviceId: string, now: int, signAccess: AccessClaims -> string, signRefresh: (string, int) -> string)
      returns (r: Result<Token>)
      requires Valid() && deviceId !in issuedDeviceIds
      modifies this
      ensures Valid()
      ensures r.Err? <==> !exists id :: id in old(users) && CanLogIn(old(users)[id], username, password, compare)
      ensures r.Err? ==> r.error == WrongCredentials && users == old(users) && issuedDeviceIds == old(issuedDeviceIds)
      ensures r.Ok? ==>
        && r.value.userId.Some?
        && var id := r.value.userId.value;
        && id in old(users) && CanLogIn(old(users)[id], username, password, compare)
        && users == old(users)[id := old(users)[id].(deviceId := Some(deviceId), refreshToken := Some(signRefresh(id, now)))]
        && r.value == Token(signAccess(LoginClaims(id, users[id], deviceId)), Some(signRefresh(id, now)), Some(id), Some(username))
        && issuedDeviceIds == old(issuedDeviceIds) + {deviceId}
    {
      var user := ValidLogin(username, password, compare);
      if user.Err? {
        return Err(WrongCredentials);
      }
      var id := user.value;
      if users[id].groups.None? {
        return Err(WrongCredentials);
      }
      var accessToken := signAccess(LoginClaims(id, users[id], deviceId));
      var refreshToken := signRefresh(id, now);
      users := users[id := users[id].(deviceId := Some(deviceId), refreshToken := Some(refreshToken))];
      issuedDeviceIds := issuedDeviceIds + {deviceId};
      r := Ok(Token(accessToken, Some(refreshToken), Some(id), Some(username)));
    }

    /** `tokenExpire`: a fresh access token for the user a stored refresh
        token names, signed over the device id stored now; 401 otherwise. */
    method TokenExpire(refreshToken: string, refreshId: string -> Option<string>, signAccess: AccessClaims -> string)
      returns (r: Result<Token>)
      ensures r.Ok? <==> RefreshAccepted(users, refreshToken, refreshId)
      ensures r.Ok? ==> r.value == Token(signAccess(RefreshedClaims(refreshId(refreshToken).value,
                                                                     users[refreshId(refreshToken).value])),
                                         None, None, None)
      ensures r.Err? ==> r.error == NotAuthorized
    {
      var id := refreshId(refreshToken);
      if id.None? || id.value !in users {
        return Err(NotAuthorized);
      }
      var user := users[id.value];
      if user.refreshToken != Some(refreshToken) || user.groups.None? {
        return Err(NotAuthorized);
      }
      r := Ok(Token(signAccess(RefreshedClaims(id.value, user)), None, None, None));
    }

    /** `signOut`: forgets the refresh token and device id of the user the
        caller names and returns the user's id; an unknown user is a 500.
        The access token is only decoded for logging: it is not compared
        with the named user. */
    method SignOut(userId: string, accessToken: string) returns (r: Result<string>)
      requires Valid()
      modifies this
      ensures Valid() && issuedDeviceIds == old(issuedDeviceIds)
      ensures userId in old(users) ==>
        r == Ok(userId) && users == old(users)[userId := old(users)[userId].(refreshToken := None, deviceId := None)]
      ensures userId !in old(users) ==> r == Err(ServerError) && users == old(users)
    {
      if userId !in users {
        return Err(ServerError);
      }
      users := users[userId := users[userId].(refreshToken := None, deviceId := None)];
      r := Ok(userId);
    }

    /** `getDiviceId`. */
    method GetDeviceId(userId: Option<string>) returns (r: Result<Option<string>>)
      ensures r == DeviceIdLookup(users, userId)
    {
      if userId.None? || userId.value !in users {
        return Err(ServerError);
      }
      r := Ok(users[userId.value].deviceId);
    }

    /** `verifyAccessToken`: success exactly when the token verifies. */
    method VerifyAccessToken(token: string, verifyAccess: string -> Option<AccessClaims>) returns (success: bool)
      ensures success <==> verifyAccess(token).Some?
    {
      success := verifyAccess(token).Some?;
    }
  }
}

=== FILE: common.dfy ===
/** Values shared by every module of the model: optional values, input
    fields that tell `undefined` from `null`, and the HTTP errors the
    services throw. */
module Common {

  /** A value that may be missing, where `undefined` and `null` act alike
      (a stored column, a `??` default, a `||` fallback). */
  datatype Option<+T> = None | Some(value: T)

  /** An optional input field as the client sends it: left out
      (`undefined`), sent as `null`, or given. Prisma and lodash treat the
      first two differently. */
  datatype Field<+T> = Absent | Null | Given(value: T)

  /** An `HttpException(message, status)` as the services raise it. */
  datatype HttpError = HttpError(status: nat, message: string)

  /** A call that either completes with a value or throws an `HttpException`. */
  datatype Result<+T> = Ok(value: T) | Err(error: HttpError)

  const StatusBadRequest: nat := 400
  const StatusUnauthorized: nat := 401
  const StatusForbidden: nat := 403
  const StatusConflict: nat := 409
  const StatusInternalError: nat := 500
}

=== FILE: csv.dfy ===
/** The CSV helpers of the upload path: stripping formula-injection
    prefixes, reading CSV text into records and writing records as CSV. */
module Csv {
  import opened Common
  import opened Strings

  // ---------------------------------------------------------------------
  // sanitizeCsv
  // ---------------------------------------------------------------------

  /** The characters a spreadsheet reads as the start of a formula. */
  predicate IsInjectionChar(c: char)
  {
    c == '=' || c == '+' || c == '-' || c == '@'
  }

  /** `sanitizeCsv`: drops the whole leading run of formula characters,
      one character per recursive call. The result is a suffix of the input,
      everything dropped is a formula character, and what is left does not
      start with one, so the dropped run is the maximal one. */
  function SanitizeCsv(str: string): (r: string)
    ensures |r| <= |str| && r == str[|str| - |r|..]
    ensures forall i :: 0 <= i < |str| - |r| ==> IsInjectionChar(str[i])
    ensures r == [] || !IsInjectionChar(r[0])
    decreases |str|
  {
    if str == [] then ""
    else if !IsInjectionChar(str[0]) then str
    else SanitizeCsv(str[1..])
  }

  /** A value that does not start with a formula character comes back as it
      was; the empty value comes back empty. */
  lemma SanitizeKeepsSafe(str: string)
    requires str == [] || !IsInjectionChar(str[0])
    ensures SanitizeCsv(str) == str
  {
  }

  /** Sanitizing twice is sanitizing once. */
  lemma SanitizeIdempotent(str: string)
    ensures SanitizeCsv(SanitizeCsv(str)) == SanitizeCsv(str)
  {
    SanitizeKeepsSafe(SanitizeCsv(str));
  }

  /** Any prefix made only of formula characters and followed by a safe
      character (or by nothing) is exactly what sanitizing removes. */
  lemma SanitizeDropsMaximalRun(str: string, k: nat)
    requires k <= |str|
    requires forall i :: 0 <= i < k ==> IsInjectionChar(str[i])
    requires k == |str| || !IsInjectionChar(str[k])
    ensures SanitizeCsv(str) == str[k..]
  {
  }

  // ---------------------------------------------------------------------
  // Splitting one line into fields
  // ---------------------------------------------------------------------

  function QuoteCount(s: string): nat
  {
    Count(s, '"')
  }

  /** The look-ahead of the field pattern: the rest of the line is a run of
      non-quote characters and complete quoted sections, that is, it holds an
      even number of double quotes. */
  predicate EvenQuotes(rest: string)
  {
    QuoteCount(rest) % 2 == 0
  }

  /** The fields of a line: a comma separates only when an even number of
      double quotes follows it, so commas inside a quoted section stay in
      their field. Quotes are kept in the fields. */
  function SplitFields(line: string): (fields: seq<string>)
    ensures |fields| >= 1
    ensures Join(fields, ',') == line
  {
    SplitWhere(line, ',', EvenQuotes)
  }

  /** What `line.split(pattern)` returns: because the pattern captures the
      comma, every separator appears as an item "," between the fields. */
  function CaptureSplit(line: string): (items: seq<string>)
  {
    Interleave(SplitFields(line))
  }

  function Interleave(fields: seq<string>): (items: seq<string>)
    decreases |fields|
  {
    if |fields| <= 1 then fields else [fields[0], ","] + Interleave(fields[1..])
  }

  /** `.filter(elem => elem !== ',')`. */
  function DropCommaItems(items: seq<string>): (kept: seq<string>)
    ensures forall k :: 0 <= k < |kept| ==> kept[k] != ","
    decreases |items|
  {
    if items == [] then []
    else if items[0] == "," then DropCommaItems(items[1..])
    else [items[0]] + DropCommaItems(items[1..])
  }

  /** The first field of a line is empty only when the line is empty or
      starts with a separating comma. */
  lemma FirstFieldEmpty(line: string)
    requires SplitFields(line)[0] == ""
    ensures line == [] || (line[0] == ',' && EvenQuotes(line[1..]))
  {
  }

  /** No field is the one-character string ",": a lone comma between two
      separators, or at the end of the line, would itself be a separator. */
  lemma {:induction false} NoFieldIsComma(line: string)
    ensures forall k :: 0 <= k < |SplitFields(line)| ==> SplitFields(line)[k] != ","
    decreases |line|
  {
    if line != [] {
      var t := line[1..];
      NoFieldIsComma(t);
      var rest := SplitFields(t);
      if line[0] == ',' && rest[0] == "" {
        // then the comma at the head of the line is itself a separator
        FirstFieldEmpty(t);
      }
    }
  }

  lemma {:induction false} DropCommasOfInterleave(fields: seq<string>)
    requires forall k :: 0 <= k < |fields| ==> fields[k] != ","
    ensures DropCommaItems(Interleave(fields)) == fields
    decreases |fields|
  {
    if |fields| > 1 {
      DropCommasOfInterleave(fields[1..]);
      var items := Interleave(fields);
      assert items[1..] == [","] + Interleave(fields[1..]);
      assert items[1..][1..] == Interleave(fields[1..]);
      assert [fields[0]] + fields[1..] == fields;
    } else if |fields| == 1 {
      assert Interleave(fields)[1..] == [];
    }
  }

  /** Filtering the captured commas out of the split leaves exactly the
      fields. */
  lemma FilterCapturedCommas(line: string)
    ensures DropCommaItems(CaptureSplit(line)) == SplitFields(line)
  {
    NoFieldIsComma(line);
    DropCommasOfInterleave(SplitFields(line));
  }

  // ---------------------------------------------------------------------
  // csvToJson
  // ---------------------------------------------------------------------

  /** An object built by `csvToJson`: a header mapped to its field, or to
      `undefined` (None) when the line has fewer fields than headers. */
  type Record = map<string, Option<string>>

  function FieldAt(fields: seq<string>, j: nat): Option<string>
  {
    if j < |fields| then Some(fields[j]) else None
  }

  /** The object after assigning the first `n` headers in order; a repeated
      header keeps the field of its last position. */
  function ZipRecord(headers: seq<string>, fields: seq<string>, n: nat): (obj: Record)
    requires n <= |headers|
    ensures obj.Keys == set j | 0 <= j < n :: headers[j]
  {
    if n == 0 then map[]
    else ZipRecord(headers, fields, n - 1)[headers[n - 1] := FieldAt(fields, n - 1)]
  }

  /** The records `csvToJson` returns: one per line after the header line. */
  function CsvRecords(csv: string): (records: seq<Record>)
    ensures |records| == |Split(csv, '\n')| - 1
  {
    var lines := Split(csv, '\n');
    var headers := SplitFields(lines[0]);
    seq(|lines| - 1, i requires 0 <= i < |lines| - 1 =>
      ZipRecord(headers, SplitFields(lines[i + 1]), |headers|))
  }

  /** Record i zips the header line's fields with line i + 1's fields. */
  lemma CsvRecordAt(csv: string, i: nat)
    requires i < |Split(csv, '\n')| - 1
    ensures var lines := Split(csv, '\n');
      var headers := SplitFields(lines[0]);
      CsvRecords(csv)[i] == ZipRecord(headers, SplitFields(lines[i + 1]), |headers|)
  {
  }

  /** `csvToJson`: the outer loop over the lines after the first. */
  method CsvToJson(csv: string) returns (result: seq<Record>)
    ensures result == CsvRecords(csv)
  {
    var lines := Split(csv, '\n');
    ghost var records := CsvRecords(csv);
    result := [];
    var headers := SplitLine(lines[0]);
    for i := 1 to |lines|
      invariant result == records[..i - 1]
    {
      var obj := ZipLine(headers, lines[i]);
      CsvRecordAt(csv, i - 1);
      assert records[..i] == records[..i - 1] + [records[i - 1]];
      result := result + [obj];
    }
    assert records[..|lines| - 1] == records;
  }

  /** The regex split of a line with the captured commas filtered out. */
  method SplitLine(line: string) returns (fields: seq<string>)
    ensures fields == SplitFields(line)
  {
    FilterCapturedCommas(line);
    fields := DropCommaItems(CaptureSplit(line));
  }

  /** `csvToJson`'s inner loop: one object from the headers and a line. */
  method ZipLine(headers: seq<string>, line: string) returns (obj: Record)
    ensures obj == ZipRecord(headers, SplitFields(line), |headers|)
  {
    obj := map[];
    var currentLine := SplitLine(line);
    for j := 0 to |headers|
      invariant obj == ZipRecord(headers, currentLine, j)
    {
      obj := obj[headers[j] := if j < |currentLine| then Some(currentLine[j]) else None];
    }
  }

  /** One record per line after the first: as many records as the text has
      line breaks. */
  lemma CsvRecordCount(csv: string)
    ensures |CsvRecords(csv)| == Count(csv, '\n')
  {
    SplitCount(csv, '\n');
  }

  /** The value under header `h` comes from the last position holding `h`. */
  lemma {:induction false} ZipRecordAt(headers: seq<string>, fields: seq<string>, n: nat, j: nat)
    requires j < n <= |headers|
    requires forall k :: j < k < n ==> headers[k] != headers[j]
    ensures ZipRecord(headers, fields, n)[headers[j]] == FieldAt(fields, j)
    decreases n
  {
    if j < n - 1 {
      ZipRecordAt(headers, fields, n - 1, j);
    }
  }

  /** With distinct headers, each record maps header j to field j of its
      line, or to undefined when the line is short. */
  lemma CsvRecordField(csv: string, i: nat, j: nat)
    requires i < |CsvRecords(csv)|
    requires var headers := SplitFields(Split(csv, '\n')[0]);
      j < |headers| && forall k :: j < k < |headers| ==> headers[k] != headers[j]
    ensures var lines := Split(csv, '\n');
      var headers := SplitFields(lines[0]);
      headers[j] in CsvRecords(csv)[i] && CsvRecords(csv)[i][headers[j]] == FieldAt(SplitFields(lines[i + 1]), j)
  {
    var lines := Split(csv, '\n');
    var headers := SplitFields(lines[0]);
    ZipRecordAt(headers, SplitFields(lines[i + 1]), |headers|, j);
  }

  // ---------------------------------------------------------------------
  // jsonToCSV
  // ---------------------------------------------------------------------

  /** One property of a row object, in the order `Object.keys` gives; the
      value is already in its text form. */
  datatype Entry = Entry(key: string, value: string)

  type Row = seq<Entry>

  function Quote(v: string): string
  {
    "\"" + v + "\""
  }

  function QuoteAll(vs: seq<string>): (qs: seq<string>)
    ensures |qs| == |vs|
  {
    seq(|vs|, i requires 0 <= i < |vs| => Quote(vs[i]))
  }

  /** An array of quoted values as `join('\n')` prints it: comma separated. */
  function CsvLine(vs: seq<string>): string
  {
    Join(QuoteAll(vs), ',')
  }

  function Keys(row: Row): (ks: seq<string>)
    ensures |ks| == |row|
  {
    seq(|row|, i requires 0 <= i < |row| => row[i].key)
  }

  function Values(row: Row): (vs: seq<string>)
    ensures |vs| == |row|
  {
    seq(|row|, i requires 0 <= i < |row| => row[i].value)
  }

  /** `jsonToCSV`: the header line (the given headers, or else the keys of
      the first row) followed by one line per row. Without headers and
      without rows, `data[0]` is undefined and the call throws (None). */
  function JsonToCsv(data: seq<Row>, headers: Option<seq<string>>): (csv: Option<string>)
    ensures csv.None? <==> headers.None? && data == []
  {
    if headers.None? && data == [] then None
    else
      var first := if headers.Some? then headers.value else Keys(data[0]);
      var lines := seq(|data|, i requires 0 <= i < |data| => CsvLine(Values(data[i])));
      Some(Join([CsvLine(first)] + lines, '\n'))
  }

  /** Text without a line break. */
  predicate NoBreak(v: string)
  {
    '\n' !in v
  }

  /** Text without a line break or a double quote. */
  predicate PlainText(v: string)
  {
    '"' !in v && NoBreak(v)
  }

  lemma {:induction false} QuoteCountQuoted(v: string)
    requires '"' !in v
    ensures QuoteCount(Quote(v)) == 2
  {
    assert Count(v, '"') == 0 by { NoQuoteNoCount(v); }
    CountAppend("\"", v + "\"", '"');
    CountAppend(v, "\"", '"');
    assert Quote(v) == "\"" + (v + "\"");
  }

  lemma {:induction false} NoQuoteNoCount(v: string)
    requires '"' !in v
    ensures Count(v, '"') == 0
    decreases |v|
  {
    if v != [] {
      NoQuoteNoCount(v[1..]);
    }
  }

  /** A line of quoted plain values has an even number of quotes. */
  lemma {:induction false} CsvLineEvenQuotes(vs: seq<string>)
    requires forall k :: 0 <= k < |vs| ==> '"' !in vs[k]
    ensures EvenQuotes(CsvLine(vs))
    decreases |vs|
  {
    var qs := QuoteAll(vs);
    if |vs| == 1 {
      QuoteCountQuoted(vs[0]);
    } else if |vs| > 1 {
      CsvLineEvenQuotes(vs[1..]);
      assert QuoteAll(vs[1..]) == qs[1..];
      QuoteCountQuoted(vs[0]);
      CountAppend(qs[0] + [','], Join(qs[1..], ','), '"');
      CountAppend(qs[0], [','], '"');
    }
  }

  /** Commas inside a quoted plain value never separate fields. */
  lemma QuotedCommasInactive(v: string, b: string)
    requires '"' !in v
    requires EvenQuotes(b)
    ensures var q := Quote(v);
      forall i :: 0 <= i < |q| && q[i] == ',' ==> !EvenQuotes(q[i+1..] + [','] + b)
  {
    var q := Quote(v);
    forall i | 0 <= i < |q| && q[i] == ','
      ensures !EvenQuotes(q[i+1..] + [','] + b)
    {
      assert 1 <= i <= |v|;
      assert q[i+1..] == v[i..] + "\"";
      assert '"' !in v[i..];
      NoQuoteNoCount(v[i..]);
      CountAppend(v[i..], "\"", '"');
      CountAppend(q[i+1..], [','] + b, '"');
      CountAppend([','], b, '"');
      assert q[i+1..] + [','] + b == q[i+1..] + ([','] + b);
    }
  }

  lemma QuotedCommasInactiveAtEnd(v: string)
    requires '"' !in v
    ensures var q := Quote(v);
      forall i :: 0 <= i < |q| && q[i] == ',' ==> !EvenQuotes(q[i+1..])
  {
    var q := Quote(v);
    forall i | 0 <= i < |q| && q[i] == ','
      ensures !EvenQuotes(q[i+1..])
    {
      assert 1 <= i <= |v|;
      assert q[i+1..] == v[i..] + "\"";
      assert '"' !in v[i..];
      NoQuoteNoCount(v[i..]);
      CountAppend(v[i..], "\"", '"');
    }
  }

  /** Reading back a line that `jsonToCSV` wrote gives the quoted values,
      commas inside values included. */
  lemma {:induction false} SplitFieldsOfCsvLine(vs: seq<string>)
    requires |vs| >= 1
    requires forall k :: 0 <= k < |vs| ==> '"' !in vs[k]
    ensures SplitFields(CsvLine(vs)) == QuoteAll(vs)
    decreases |vs|
  {
    var qs := QuoteAll(vs);
    if |vs| == 1 {
      QuotedCommasInactiveAtEnd(vs[0]);
      SplitWhereWhole(qs[0], ',', EvenQuotes);
    } else {
      SplitFieldsOfCsvLine(vs[1..]);
      assert QuoteAll(vs[1..]) == qs[1..];
      var b := Join(qs[1..], ',');
      CsvLineEvenQuotes(vs[1..]);
      QuotedCommasInactive(vs[0], b);
      SplitWhereAppend(qs[0], b, ',', EvenQuotes);
      assert [qs[0]] + qs[1..] == qs;
    }
  }

  /** The lines `jsonToCSV` writes, in order: headers first, then one per
      row, so `data.length + 1` lines when no text holds a line break. */
  lemma JsonToCsvLines(data: seq<Row>, headers: Option<seq<string>>)
    requires headers.Some? || data != []
    requires headers.Some? ==> forall k :: 0 <= k < |headers.value| ==> NoBreak(headers.value[k])
    requires headers.None? ==> forall k :: 0 <= k < |data[0]| ==> NoBreak(data[0][k].key)
    requires forall r, k :: 0 <= r < |data| && 0 <= k < |data[r]| ==> NoBreak(data[r][k].value)
    ensures var lines := Split(JsonToCsv(data, headers).value, '\n');
      && |lines| == |data| + 1
      && lines[0] == CsvLine(if headers.Some? then headers.value else Keys(data[0]))
      && forall r :: 0 <= r < |data| ==> lines[r + 1] == CsvLine(Values(data[r]))
  {
    var first := if headers.Some? then headers.value else Keys(data[0]);
    var lines := seq(|data|, i requires 0 <= i < |data| => CsvLine(Values(data[i])));
    var all := [CsvLine(first)] + lines;
    forall k | 0 <= k < |all| ensures '\n' !in all[k] {
      if k == 0 {
        PlainLineHasNoBreak(first);
      } else {
        PlainLineHasNoBreak(Values(data[k - 1]));
      }
    }
    SplitJoin(all, '\n');
  }

  lemma {:induction false} PlainLineHasNoBreak(vs: seq<string>)
    requires forall k :: 0 <= k < |vs| ==> NoBreak(vs[k])
    ensures '\n' !in CsvLine(vs)
    decreases |vs|
  {
    var qs := QuoteAll(vs);
    if |vs| > 1 {
      PlainLineHasNoBreak(vs[1..]);
      assert QuoteAll(vs[1..]) == qs[1..];
    }
  }

  /** `csvToJson` reads back what `jsonToCSV` writes with explicit headers:
      one record per row, mapping each quoted header to the quoted value at
      the same position (undefined past the end of a short row). */
  lemma CsvRoundTrip(data: seq<Row>, headers: seq<string>)
    requires |headers| >= 1
    requires forall k :: 0 <= k < |headers| ==> PlainText(headers[k])
    requires forall r :: 0 <= r < |data| ==> |data[r]| >= 1
    requires forall r, k :: 0 <= r < |data| && 0 <= k < |data[r]| ==> PlainText(data[r][k].value)
    ensures CsvRecords(JsonToCsv(data, Some(headers)).value)
      == seq(|data|, r requires 0 <= r < |data| =>
           ZipRecord(QuoteAll(headers), QuoteAll(Values(data[r])), |headers|))
  {
    JsonToCsvLines(data, Some(headers));
    RecordsOfWrittenLines(JsonToCsv(data, Some(headers)).value, data, headers);
  }

  lemma RecordsOfWrittenLines(csv: string, data: seq<Row>, headers: seq<string>)
    requires |headers| >= 1
    requires forall k :: 0 <= k < |headers| ==> PlainText(headers[k])
    requires forall r :: 0 <= r < |data| ==> |data[r]| >= 1
    requires forall r, k :: 0 <= r < |data| && 0 <= k < |data[r]| ==> PlainText(data[r][k].value)
    requires |Split(csv, '\n')| == |data| + 1
    requires Split(csv, '\n')[0] == CsvLine(headers)
    requires forall r :: 0 <= r < |data| ==> Split(csv, '\n')[r + 1] == CsvLine(Values(data[r]))
    ensures CsvRecords(csv)
      == seq(|data|, r requires 0 <= r < |data| =>
           ZipRecord(QuoteAll(headers), QuoteAll(Values(data[r])), |headers|))
  {
    SplitFieldsOfCsvLine(headers);
    forall r | 0 <= r < |data|
      ensures CsvRecords(csv)[r] == ZipRecord(QuoteAll(headers), QuoteAll(Values(data[r])), |headers|)
    {
      RoundTripLine(data, headers, csv, r);
    }
  }

  lemma RoundTripLine(data: seq<Row>, headers: seq<string>, csv: string, r: nat)
    requires |headers| >= 1 && r < |data| && |data[r]| >= 1
    requires SplitFields(Split(csv, '\n')[0]) == QuoteAll(headers)
    requires |Split(csv, '\n')| == |data| + 1
    requires Split(csv, '\n')[r + 1] == CsvLine(Values(data[r]))
    requires forall k :: 0 <= k < |data[r]| ==> PlainText(data[r][k].value)
    ensures CsvRecords(csv)[r] == ZipRecord(QuoteAll(headers), QuoteAll(Values(data[r])), |headers|)
  {
    var lines := Split(csv, '\n');
    var vs := Values(data[r]);
    assert forall k :: 0 <= k < |vs| ==> '"' !in vs[k] by {
      forall k | 0 <= k < |vs| ensures '"' !in vs[k] {
        assert vs[k] == data[r][k].value && PlainText(data[r][k].value);
      }
    }
    SplitFieldsOfCsvLine(vs);
    var fields := SplitFields(lines[r + 1]);
    assert fields == QuoteAll(vs);
    CsvRecordAt(csv, r);
  }
}

=== FILE: device_binding.dfy ===
/** How the guard and the session store fit together: the guard's call to
    the device-id endpoint reads the device id stored by the last login, so
    an access token is admitted only while its device id is the stored one.
    After a second login or a sign out no user holds the earlier device id,
    so access tokens carrying it are refused; the earlier refresh token
    stops renewing access once the stored one differs from it. */
module DeviceBinding {
  import opened Common
  import opened Tokens
  import opened Sessions
  import opened Guard

  /** `DiviceGuard.canActivate` on the endpoint's request: the verified
      claims, or a refusal when the header is missing, the token does not
      verify, or its device id is missing or empty (a falsy guard result
      refuses the request). */
  function DeviceGuardClaims(request: Option<Request>, verify: string -> Option<AccessClaims>): (c: Option<AccessClaims>)
    ensures c.Some? ==> BearerToken(request).Some? && verify(BearerToken(request).value) == c && Truthy(c.value.deviceId)
  {
    match BearerToken(request)
    case None => None
    case Some(token) =>
      match verify(token)
      case None => None
      case Some(claims) => if Truthy(claims.deviceId) then Some(claims) else None
  }

  /** GET auth/diviceId with the guard's bearer token: the device id stored
      for the user the token names, or a failed call. */
  function DeviceEndpoint(users: Users, verify: string -> Option<AccessClaims>, token: string): (f: DeviceFetch)
    ensures f.Fetched? ==> verify(token).Some? && DeviceIdLookup(users, verify(token).value.userId) == Ok(f.data)
  {
    match DeviceGuardClaims(BearerRequest(token), verify)
    case None => FetchFailed
    case Some(claims) =>
      match DeviceIdLookup(users, claims.userId)
      case Err(_) => FetchFailed
      case Ok(d) => Fetched(d)
  }

  function EndpointOf(users: Users, verify: string -> Option<AccessClaims>): string -> DeviceFetch
  {
    token => DeviceEndpoint(users, verify, token)
  }

  /** The token's device id is the one stored for the user it names. */
  predicate BoundToStoredDevice(users: Users, claims: AccessClaims)
  {
    && claims.userId.Some? && claims.userId.value in users
    && Truthy(claims.deviceId)
    && users[claims.userId.value].deviceId == claims.deviceId
  }

  /** With the real endpoint behind it, the guard admits a request exactly
      when its token verifies, has a fitting role, and is bound to the
      device id stored for its user. */
  lemma GuardAdmitsExactlyBoundTokens(guardRole: Option<string>, anyRole: string, request: Option<Request>,
                                      verify: string -> Option<AccessClaims>, users: Users)
    ensures CanActivate(guardRole, anyRole, request, verify, EndpointOf(users, verify)) == Allow
      <==> && BearerToken(request).Some?
           && verify(BearerToken(request).value).Some?
           && RolePasses(guardRole, anyRole, verify(BearerToken(request).value).value.role)
           && BoundToStoredDevice(users, verify(BearerToken(request).value).value)
  {
    CanActivateExactly(guardRole, anyRole, request, verify, EndpointOf(users, verify));
    if BearerToken(request).Some? && verify(BearerToken(request).value).Some? {
      var token := BearerToken(request).value;
      var claims := verify(token).value;
      assert BearerToken(BearerRequest(token)) == Some(token);
      if BoundToStoredDevice(users, claims) {
        assert DeviceGuardClaims(BearerRequest(token), verify) == Some(claims);
        assert EndpointOf(users, verify)(token) == Fetched(claims.deviceId);
      }
    }
  }

  /** A token whose device id is no longer the stored one is refused, with
      any role and any request carrying it. */
  lemma StaleDeviceRefused(guardRole: Option<string>, anyRole: string, token: string,
                           verify: string -> Option<AccessClaims>, users: Users, id: string, issued: string)
    requires verify(token).Some? && verify(token).value.userId == Some(id) && verify(token).value.deviceId == Some(issued)
    requires id in users && users[id].deviceId != Some(issued)
    ensures CanActivate(guardRole, anyRole, BearerRequest(token), verify, EndpointOf(users, verify)).Deny?
  {
    GuardAdmitsExactlyBoundTokens(guardRole, anyRole, BearerRequest(token), verify, users);
  }

  /** A token renewed from the stored refresh token carries the stored
      device id, so it passes the device check while that session lasts. */
  lemma RefreshedTokenAdmitted(guardRole: Option<string>, anyRole: string, users: Users, id: string,
                               signAccess: AccessClaims -> string, verify: string -> Option<AccessClaims>)
    requires id in users && users[id].groups.Some? && Truthy(users[id].deviceId)
    requires verify(signAccess(RefreshedClaims(id, users[id]))) == Some(RefreshedClaims(id, users[id]))
    requires RolePasses(guardRole, anyRole, Some(users[id].groups.value.name))
    ensures CanActivate(guardRole, anyRole, BearerRequest(signAccess(RefreshedClaims(id, users[id]))),
                        verify, EndpointOf(users, verify)) == Allow
  {
    GuardAdmitsExactlyBoundTokens(guardRole, anyRole, BearerRequest(signAccess(RefreshedClaims(id, users[id]))), verify, users);
  }

  /** A token from login is admitted while its device id is the stored one
      and its role fits. */
  lemma LoginTokenAdmitted(guardRole: Option<string>, anyRole: string, users: Users, id: string, deviceId: string,
                           signAccess: AccessClaims -> string, verify: string -> Option<AccessClaims>)
    requires id in users && users[id].groups.Some? && users[id].deviceId == Some(deviceId) && deviceId != ""
    requires verify(signAccess(LoginClaims(id, users[id], deviceId))) == Some(LoginClaims(id, users[id], deviceId))
    requires RolePasses(guardRole, anyRole, Some(users[id].groups.value.name))
    ensures CanActivate(guardRole, anyRole, BearerRequest(signAccess(LoginClaims(id, users[id], deviceId))),
                        verify, EndpointOf(users, verify)) == Allow
  {
    GuardAdmitsExactlyBoundTokens(guardRole, anyRole, BearerRequest(signAccess(LoginClaims(id, users[id], deviceId))),
                                  verify, users);
  }

  /** Some user has this device id stored. */
  predicate DeviceHeld(users: Users, deviceId: string)
  {
    exists id :: id in users && users[id].deviceId == Some(deviceId)
  }

  /** A token whose device id no user holds is refused, whatever user it
      names and whatever its role. */
  lemma UnheldDeviceRefused(guardRole: Option<string>, anyRole: string, request: Option<Request>,
                            verify: string -> Option<AccessClaims>, users: Users, deviceId: string)
    requires BearerToken(request).Some? && verify(BearerToken(request).value).Some?
    requires verify(BearerToken(request).value).value.deviceId == Some(deviceId)
    requires !DeviceHeld(users, deviceId)
    ensures CanActivate(guardRole, anyRole, request, verify, EndpointOf(users, verify)).Deny?
  {
    GuardAdmitsExactlyBoundTokens(guardRole, anyRole, request, verify, users);
  }

  /** Logging in twice with the same credentials, at times `firstAt` and
      `secondAt`: the second login succeeds whenever the first did, for the
      same user, and afterwards no user holds the first login's device id,
      so by `UnheldDeviceRefused` every access token carrying it is refused.
      When the two refresh tokens differ (they carry different issue times)
      the first one, which names the user, no longer renews access. */
  method LoginTwice(auth: AuthService, username: string, password: string, compare: (string, string) -> bool,
                    first: string, firstAt: int, second: string, secondAt: int, signAccess: AccessClaims -> string,
                    signRefresh: (string, int) -> string, refreshId: string -> Option<string>)
    returns (r1: Result<Token>, r2: Result<Token>)
    requires auth.Valid() && first !in auth.issuedDeviceIds && second !in auth.issuedDeviceIds && first != second
    modifies auth
    ensures auth.Valid()
    ensures r1.Ok? ==> r2.Ok? && r2.value.userId == r1.value.userId
    ensures r1.Ok? ==> !DeviceHeld(auth.users, first)
    ensures r2.Ok? ==> && r2.value.userId.Some? && r2.value.userId.value in auth.users
                       && auth.users[r2.value.userId.value].deviceId == Some(second)
    ensures r1.Ok? && r1.value.refreshToken.Some? && refreshId(r1.value.refreshToken.value) == r1.value.userId
                   && r1.value.refreshToken != r2.value.refreshToken ==>
      !RefreshAccepted(auth.users, r1.value.refreshToken.value, refreshId)
  {
    ghost var before := auth.users;
    ghost var issued := auth.issuedDeviceIds;
    r1 := auth.Login(username, password, compare, first, firstAt, signAccess, signRefresh);
    if r1.Ok? {
      var id := r1.value.userId.value;
      assert CanLogIn(auth.users[id], username, password, compare);
    }
    ghost var afterFirst := auth.users;
    r2 := auth.Login(username, password, compare, second, secondAt, signAccess, signRefresh);
    if r1.Ok? {
      var id := r1.value.userId.value;
      var id2 := r2.value.userId.value;
      assert afterFirst[id].username == username == afterFirst[id2].username;
      assert id2 == id;
      forall k | k in auth.users ensures auth.users[k].deviceId != Some(first) {
        if k != id {
          assert auth.users[k] == before[k];
          assert before[k].deviceId.Some? ==> before[k].deviceId.value in issued;
        }
      }
    }
  }

  /** Signing out after a login: no user holds the login's device id any
      more, so its access token is refused (`UnheldDeviceRefused`), and its
      refresh token, which names the user, no longer renews access. */
  method LoginThenSignOut(auth: AuthService, username: string, password: string, compare: (string, string) -> bool,
                          deviceId: string, now: int, signAccess: AccessClaims -> string,
                          signRefresh: (string, int) -> string,
                          refreshId: string -> Option<string>)
    returns (login: Result<Token>, renewed: Result<Token>)
    requires auth.Valid() && deviceId !in auth.issuedDeviceIds
    modifies auth
    ensures auth.Valid()
    ensures login.Ok? ==> !DeviceHeld(auth.users, deviceId)
    ensures login.Ok? && login.value.refreshToken.Some? && refreshId(login.value.refreshToken.value) == login.value.userId ==>
      renewed.Err? && renewed.error == NotAuthorized
  {
    ghost var before := auth.users;
    ghost var issued := auth.issuedDeviceIds;
    login := auth.Login(username, password, compare, deviceId, now, signAccess, signRefresh);
    if login.Err? {
      renewed := Err(NotAuthorized);
      return;
    }
    var id := login.value.userId.value;
    var out := auth.SignOut(id, login.value.accessToken);
    renewed := auth.TokenExpire(login.value.refreshToken.value, refreshId, signAccess);
    forall k | k in auth.users ensures auth.users[k].deviceId != Some(deviceId) {
      if k != id {
        assert auth.users[k] == before[k];
        assert before[k].deviceId.Some? ==> before[k].deviceId.value in issued;
      }
    }
  }
}

=== FILE: inventory_service.dfy ===
/** `InventoryService`: three tables (inventory, inventoryType, brandType)
    with upsert-after-duplicate-check, soft delete and filtered reads. Each
    table is a map from row id to row; the store's queries become map
    lookups, inserts and field updates. */
module InventoryStore {
  import opened Common
  import opened Strings
  import opened Types

  // ---------------------------------------------------------------------
  // Rows and tables
  // ---------------------------------------------------------------------

  /** A row of any of the three tables: the columns every upsert writes,
      and the columns particular to the table in `data`. */
  datatype Row<P> = Row(
    name: string,
    description: Option<string>,
    deleted: bool,
    createdBy: Option<string>,
    updatedBy: Option<string>,
    data: P)

  /** The inventory table's own columns. */
  datatype InventoryData = InventoryData(
    amount: real,
    price: real,
    inventoryTypeId: string,
    brandTypeId: string,
    expiryDate: Option<int>,
    createdAt: int)

  /** inventoryType and brandType rows carry nothing beyond the common columns. */
  datatype LookupData = LookupData

  type Table<P> = map<string, Row<P>>

  /** A row as a query returns it, with its id. */
  datatype Listed<P> = Listed(id: string, row: Row<P>)

  /** The duplicate probe `findFirst({ where: { name } })`: any row with that
      name, soft-deleted or not. */
  predicate NameTaken<P>(table: Table<P>, name: string)
  {
    exists id :: id in table && table[id].name == name
  }

  ghost predicate DistinctNames<P>(table: Table<P>)
  {
    forall a, b :: a in table && b in table && table[a].name == table[b].name ==> a == b
  }

  function LiveIds<P>(table: Table<P>): (ids: set<string>)
    ensures ids <= table.Keys
  {
    set id | id in table && !table[id].deleted
  }

  /** The row after `update({ data: { deleted: true } })`. */
  function SoftDeleted<P>(table: Table<P>, id: string): (t: Table<P>)
    requires id in table
  {
    table[id := table[id].(deleted := true)]
  }

  /** The column after a Prisma `update`: left alone when the value is
      undefined, NULL when it is `null`, the value when one is given. */
  function Written<T>(current: Option<T>, update: Field<T>): Option<T>
  {
    match update
    case Absent => current
    case Null => None
    case Given(v) => Some(v)
  }

  /** A column a Prisma `create` fills from an optional field: NULL unless a
      value is given. The same reading serves an optional filter. */
  function Present<T>(f: Field<T>): Option<T>
  {
    if f.Given? then Some(f.value) else None
  }

  /** The `update` branch of every upsert: name, description, deleted (back
      to false), createdBy and updatedBy (set to createdBy). */
  function UpdatedRow<P>(row: Row<P>, name: string, description: Field<string>,
                         createdBy: Field<string>): Row<P>
  {
    row.(name := name, description := Written(row.description, description), deleted := false,
         createdBy := Written(row.createdBy, createdBy), updatedBy := Written(row.updatedBy, createdBy))
  }

  /** `id || uuidv4()` names an existing row: the upsert updates it. A fresh
      uuid never names a row. */
  predicate UpdatesExisting<P>(table: Table<P>, id: Option<string>)
  {
    id.Some? && id.value != "" && id.value in table
  }

  function NewInventoryRow(req: UpsertInventoryInput, now: int): Row<InventoryData>
  {
    Row(req.name, Present(req.description), false, Present(req.createdBy), Present(req.createdBy),
        InventoryData(req.amount, req.price, req.inventoryTypeId, req.brandTypeId, req.expiryDate, now))
  }

  function NewLookupRow(req: UpsertLookupInput): Row<LookupData>
  {
    Row(req.name, Present(req.description), false, Present(req.createdBy), Present(req.createdBy), LookupData)
  }

  const NameDuplicated := HttpError(StatusBadRequest, "Name is duplicated")
  /** What a failed query or update is reported as. */
  const InternalError := HttpError(StatusInternalError, "Internal Error")

  // ---------------------------------------------------------------------
  // Listings
  // ---------------------------------------------------------------------

  /** `ids` lists each key of `keys` exactly once. */
  predicate Enumerates(ids: seq<string>, keys: set<string>)
  {
    && (forall i, j :: 0 <= i < j < |ids| ==> ids[i] != ids[j])
    && (forall i :: 0 <= i < |ids| ==> ids[i] in keys)
    && (forall k :: k in keys ==> k in ids)
  }

  /** `page` holds the rows of `table` with the given ids, in that order. */
  predicate ListsRows<P(==)>(page: seq<Listed<P>>, table: Table<P>, ids: seq<string>)
  {
    && |page| == |ids|
    && forall i :: 0 <= i < |page| ==> page[i].id == ids[i] && ids[i] in table && page[i].row == table[ids[i]]
  }

  /** The `select` of a query: the rows with the given ids, in that order. */
  function RowsOf<P(==)>(table: Table<P>, ids: seq<string>): (page: seq<Listed<P>>)
    requires forall i :: 0 <= i < |ids| ==> ids[i] in table
    ensures ListsRows(page, table, ids)
  {
    seq(|ids|, i requires 0 <= i < |ids| => Listed(ids[i], table[ids[i]]))
  }

  /** `orderBy: { createdAt: 'desc' }`. */
  predicate NewestFirst(ids: seq<string>, table: Table<InventoryData>)
  {
    forall i, j :: 0 <= i < j < |ids| && ids[i] in table && ids[j] in table ==>
      table[ids[i]].data.createdAt >= table[ids[j]].data.createdAt
  }

  /** The `where` of `getInventories`: live, and the name contains the
      search text (no search text: no name filter). */
  predicate Matches<P>(row: Row<P>, search: Option<string>)
  {
    !row.deleted && (search.None? || Contains(row.name, search.value))
  }

  function MatchingIds<P>(table: Table<P>, search: Option<string>): (ids: set<string>)
    ensures ids <= table.Keys
  {
    set id | id in table && Matches(table[id], search)
  }

  /** The rows `skip: offset`, `take: limit` keep of a listing. */
  function Window(listing: seq<string>, skip: nat, take: nat): (w: seq<string>)
    ensures |w| == if skip >= |listing| then 0 else if take <= |listing| - skip then take else |listing| - skip
    ensures forall i :: 0 <= i < |w| ==> w[i] == listing[skip + i]
  {
    var from := if skip <= |listing| then skip else |listing|;
    var to := if from + take <= |listing| then from + take else |listing|;
    listing[from..to]
  }

  const DefaultLimit: nat := 20

  ghost function EnumerationOf(keys: set<string>): (ids: seq<string>)
    ensures Enumerates(ids, keys)
    decreases |keys|
  {
    if keys == {} then []
    else
      var k :| k in keys;
      var rest := EnumerationOf(keys - {k});
      [k] + rest
  }

  lemma {:induction false} NewestExists(table: Table<InventoryData>, keys: set<string>)
    requires keys <= table.Keys && keys != {}
    ensures exists k :: k in keys && forall k' :: k' in keys ==> table[k'].data.createdAt <= table[k].data.createdAt
    decreases |keys|
  {
    var k :| k in keys;
    if keys != {k} {
      NewestExists(table, keys - {k});
      var m :| m in keys - {k} && forall k' :: k' in keys - {k} ==> table[k'].data.createdAt <= table[m].data.createdAt;
      if table[k].data.createdAt <= table[m].data.createdAt {
        assert forall k' :: k' in keys ==> table[k'].data.createdAt <= table[m].data.createdAt;
      } else {
        assert forall k' :: k' in keys ==> table[k'].data.createdAt <= table[k].data.createdAt;
      }
    } else {
      assert forall k' :: k' in keys ==> k' == k;
    }
  }

  /** Some newest-first enumeration of any set of rows exists: repeatedly
      take a newest remaining row. */
  ghost function NewestFirstListing(table: Table<InventoryData>, keys: set<string>): (ids: seq<string>)
    requires keys <= table.Keys
    ensures Enumerates(ids, keys) && NewestFirst(ids, table)
    decreases |keys|
  {
    if keys == {} then []
    else
      NewestExists(table, keys);
      var k :| k in keys && forall k' :: k' in keys ==> table[k'].data.createdAt <= table[k].data.createdAt;
      var rest := NewestFirstListing(table, keys - {k});
      PrependNewest(table, keys, k, rest);
      [k] + rest
  }

  /** Putting a newest row in front of a newest-first enumeration of the
      others gives a newest-first enumeration of all. */
  lemma PrependNewest(table: Table<InventoryData>, keys: set<string>, k: string, rest: seq<string>)
    requires keys <= table.Keys && k in keys
    requires forall k' :: k' in keys ==> table[k'].data.createdAt <= table[k].data.createdAt
    requires Enumerates(rest, keys - {k}) && NewestFirst(rest, table)
    ensures Enumerates([k] + rest, keys) && NewestFirst([k] + rest, table)
  {
    var ids := [k] + rest;
    assert forall i :: 1 <= i < |ids| ==> ids[i] == rest[i - 1];
    forall k' | k' in keys ensures k' in ids {
      if k' != k {
        assert k' in keys - {k};
        assert k' in rest;
      }
    }
  }

  /** A `findMany` without order: every live row once, in an order the
      store chooses. */
  method ListLive<P(==)>(table: Table<P>) returns (page: seq<Listed<P>>)
    ensures exists ids :: Enumerates(ids, LiveIds(table)) && ListsRows(page, table, ids)
  {
    var live := LiveIds(table);
    ghost var someEnumeration := EnumerationOf(live);
    var ids: seq<string> :| Enumerates(ids, live);
    assert Enumerates(ids, live);
    assert forall i :: 0 <= i < |ids| ==> ids[i] in live;
    assert live <= table.Keys;
    page := RowsOf(table, ids);
  }

  /** A `findUnique` by id: the row whether or not it is soft-deleted. */
  function FindUnique<P>(table: Table<P>, id: string): (r: Option<Row<P>>)
    ensures r.Some? <==> id in table
    ensures r.Some? ==> r.value == table[id]
  {
    if id in table then Some(table[id]) else None
  }

  // ---------------------------------------------------------------------
  // The service
  // ---------------------------------------------------------------------

  class InventoryService {
    var inventories: Table<InventoryData>
    var inventoryTypes: Table<LookupData>
    var brandTypes: Table<LookupData>

    /** No two rows of a table share a name. The duplicate check of every
        upsert keeps this, and a soft delete changes no name. */
    ghost predicate Valid()
      reads this
    {
      DistinctNames(inventories) && DistinctNames(inventoryTypes) && DistinctNames(brandTypes)
    }

    constructor (inventories: Table<InventoryData>, inventoryTypes: Table<LookupData>, brandTypes: Table<LookupData>)
      requires DistinctNames(inventories) && DistinctNames(inventoryTypes) && DistinctNames(brandTypes)
      ensures this.inventories == inventories && this.inventoryTypes == inventoryTypes
      ensures this.brandTypes == brandTypes
      ensures Valid()
    {
      this.inventories := inventories;
      this.inventoryTypes := inventoryTypes;
      this.brandTypes := brandTypes;
    }

    /** `getInventories`: the live rows whose name contains `search`,
        newest first, after skipping `offset` (default 0) rows, at most
        `limit` (default 20) of them. Rows created at the same instant come in
        an order the store chooses. A missing `search` filters nothing; a
        `null` one makes Prisma refuse the query, reported as Internal
        Error. */
    method GetInventories(search: Field<string>, limit: Option<nat>, offset: Option<nat>)
      returns (r: Result<seq<Listed<InventoryData>>>)
      ensures r.Err? <==> search.Null?
      ensures r.Err? ==> r.error == InternalError
      ensures r.Ok? ==> exists listing ::
        && Enumerates(listing, MatchingIds(inventories, Present(search)))
        && NewestFirst(listing, inventories)
        && ListsRows(r.value, inventories,
                     Window(listing, if offset.Some? then offset.value else 0,
                            if limit.Some? then limit.value else DefaultLimit))
    {
      if search.Null? {
        return Err(InternalError);
      }
      var take := if limit.Some? then limit.value else DefaultLimit;
      var skip := if offset.Some? then offset.value else 0;
      var matching := MatchingIds(inventories, Present(search));
      ghost var someListing := NewestFirstListing(inventories, matching);
      var listing: seq<string> :| Enumerates(listing, matching) && NewestFirst(listing, inventories);
      var window := Window(listing, skip, take);
      assert Enumerates(listing, matching);
      assert forall i :: 0 <= i < |listing| ==> listing[i] in matching;
      assert matching <= inventories.Keys;
      r := Ok(RowsOf(inventories, window));
    }

    /** `getInventory`: the row with that id, soft-deleted or not. */
    method GetInventory(id: string) returns (row: Option<Row<InventoryData>>)
      ensures row.Some? <==> id in inventories
      ensures row.Some? ==> row.value == inventories[id]
    {
      row := FindUnique(inventories, id);
    }

    /** `getInventoryTypes`: exactly the live inventory types. */
    method GetInventoryTypes() returns (page: seq<Listed<LookupData>>)
      ensures exists ids :: Enumerates(ids, LiveIds(inventoryTypes)) && ListsRows(page, inventoryTypes, ids)
    {
      page := ListLive(inventoryTypes);
    }

    /** `getInventoryType`: the type with that id, soft-deleted or not. */
    method GetInventoryType(id: string) returns (row: Option<Row<LookupData>>)
      ensures row.Some? <==> id in inventoryTypes
      ensures row.Some? ==> row.value == inventoryTypes[id]
    {
      row := FindUnique(inventoryTypes, id);
    }

    /** `getBrandTypes`: exactly the live brands. */
    method GetBrandTypes() returns (page: seq<Listed<LookupData>>)
      ensures exists ids :: Enumerates(ids, LiveIds(brandTypes)) && ListsRows(page, brandTypes, ids)
    {
      page := ListLive(brandTypes);
    }

    /** `getBrandType`: the brand with that id, soft-deleted or not. */
    method GetBrandType(id: string) returns (row: Option<Row<LookupData>>)
      ensures row.Some? <==> id in brandTypes
      ensures row.Some? ==> row.value == brandTypes[id]
    {
      row := FindUnique(brandTypes, id);
    }

    /** `deleteInventory`: flags the row deleted and returns its id; an
        unknown id makes the update throw, reported as Internal Error. */
    method DeleteInventory(id: string) returns (r: Result<string>)
      modifies this
      ensures r == if id in old(inventories) then Ok(id) else Err(InternalError)
      ensures inventories == if id in old(inventories) then SoftDeleted(old(inventories), id) else old(inventories)
      ensures inventoryTypes == old(inventoryTypes) && brandTypes == old(brandTypes)
      ensures old(Valid()) ==> Valid()
    {
      if id !in inventories {
        return Err(InternalError);
      }
      inventories := inventories[id := inventories[id].(deleted := true)];
      r := Ok(id);
    }

    /** `deleteInventoryType`. */
    method DeleteInventoryType(id: string) returns (r: Result<string>)
      modifies this
      ensures r == if id in old(inventoryTypes) then Ok(id) else Err(InternalError)
      ensures inventoryTypes == if id in old(inventoryTypes) then SoftDeleted(old(inventoryTypes), id) else old(inventoryTypes)
      ensures inventories == old(inventories) && brandTypes == old(brandTypes)
      ensures old(Valid()) ==> Valid()
    {
      if id !in inventoryTypes {
        return Err(InternalError);
      }
      inventoryTypes := inventoryTypes[id := inventoryTypes[id].(deleted := true)];
      r := Ok(id);
    }

    /** `deleteBrandType`. */
    method DeleteBrandType(id: string) returns (r: Result<string>)
      modifies this
      ensures r == if id in old(brandTypes) then Ok(id) else Err(InternalError)
      ensures brandTypes == if id in old(brandTypes) then SoftDeleted(old(brandTypes), id) else old(brandTypes)
      ensures inventories == old(inventories) && inventoryTypes == old(inventoryTypes)
      ensures old(Valid()) ==> Valid()
    {
      if id !in brandTypes {
        return Err(InternalError);
      }
      brandTypes := brandTypes[id := brandTypes[id].(deleted := true)];
      r := Ok(id);
    }

    /** `upsertInventory`. A name already used by any row, soft-deleted rows
        and the row being updated included, is refused and nothing changes.
        Otherwise an id naming a row updates that row's name, description,
        deleted flag and authors only; any other request creates a live row
        under the id the store generates (`newId`) and returns it. */
    method UpsertInventory(req: UpsertInventoryInput, newId: string, now: int) returns (r: Result<string>)
      requires newId !in inventories
      modifies this
      ensures NameTaken(old(inventories), req.name) ==>
        r == Err(NameDuplicated) && inventories == old(inventories)
      ensures !NameTaken(old(inventories), req.name) && UpdatesExisting(old(inventories), req.id) ==>
        && r == Ok(req.id.value)
        && inventories == old(inventories)[req.id.value :=
             UpdatedRow(old(inventories)[req.id.value], req.name, req.description, req.createdBy)]
      ensures !NameTaken(old(inventories), req.name) && !UpdatesExisting(old(inventories), req.id) ==>
        r == Ok(newId) && inventories == old(inventories)[newId := NewInventoryRow(req, now)]
      ensures old(DistinctNames(inventories)) ==> DistinctNames(inventories)
      ensures inventoryTypes == old(inventoryTypes) && brandTypes == old(brandTypes)
      ensures old(Valid()) ==> Valid()
    {
      var findDup := exists id :: id in inventories && inventories[id].name == req.name;
      if findDup {
        return Err(NameDuplicated);
      }
      if req.id.Some? && req.id.value != "" && req.id.value in inventories {
        var id := req.id.value;
        AddRowKeepsNamesDistinct(inventories, id, UpdatedRow(inventories[id], req.name, req.description, req.createdBy));
        inventories := inventories[id := UpdatedRow(inventories[id], req.name, req.description, req.createdBy)];
        r := Ok(id);
      } else {
        AddRowKeepsNamesDistinct(inventories, newId, NewInventoryRow(req, now));
        inventories := inventories[newId := NewInventoryRow(req, now)];
        r := Ok(newId);
      }
    }

    /** `upsertInventoryType`: the same rules on the inventoryType table. */
    method UpsertInventoryType(req: UpsertLookupInput, newId: string) returns (r: Result<string>)
      requires newId !in inventoryTypes
      modifies this
      ensures NameTaken(old(inventoryTypes), req.name) ==>
        r == Err(NameDuplicated) && inventoryTypes == old(inventoryTypes)
      ensures !NameTaken(old(inventoryTypes), req.name) && UpdatesExisting(old(inventoryTypes), req.id) ==>
        && r == Ok(req.id.value)
        && inventoryTypes == old(inventoryTypes)[req.id.value :=
             UpdatedRow(old(inventoryTypes)[req.id.value], req.name, req.description, req.createdBy)]
      ensures !NameTaken(old(inventoryTypes), req.name) && !UpdatesExisting(old(inventoryTypes), req.id) ==>
        r == Ok(newId) && inventoryTypes == old(inventoryTypes)[newId := NewLookupRow(req)]
      ensures old(DistinctNames(inventoryTypes)) ==> DistinctNames(inventoryTypes)
      ensures inventories == old(inventories) && brandTypes == old(brandTypes)
      ensures old(Valid()) ==> Valid()
    {
      var findDup := exists id :: id in inventoryTypes && inventoryTypes[id].name == req.name;
      if findDup {
        return Err(NameDuplicated);
      }
      if req.id.Some? && req.id.value != "" && req.id.value in inventoryTypes {
        var id := req.id.value;
        AddRowKeepsNamesDistinct(inventoryTypes, id, UpdatedRow(inventoryTypes[id], req.name, req.description, req.createdBy));
        inventoryTypes := inventoryTypes[id := UpdatedRow(inventoryTypes[id], req.name, req.description, req.createdBy)];
        r := Ok(id);
      } else {
        AddRowKeepsNamesDistinct(inventoryTypes, newId, NewLookupRow(req));
        inventoryTypes := inventoryTypes[newId := NewLookupRow(req)];
        r := Ok(newId);
      }
    }

    /** `upsertBrandType`: the same rules on the brandType table. */
    method UpsertBrandType(req: UpsertLookupInput, newId: string) returns (r: Result<string>)
      requires newId !in brandTypes
      modifies this
      ensures NameTaken(old(brandTypes), req.name) ==>
        r == Err(NameDuplicated) && brandTypes == old(brandTypes)
      ensures !NameTaken(old(brandTypes), req.name) && UpdatesExisting(old(brandTypes), req.id) ==>
        && r == Ok(req.id.value)
        && brandTypes == old(brandTypes)[req.id.value :=
             UpdatedRow(old(brandTypes)[req.id.value], req.name, req.description, req.createdBy)]
      ensures !NameTaken(old(brandTypes), req.name) && !UpdatesExisting(old(brandTypes), req.id) ==>
        r == Ok(newId) && brandTypes == old(brandTypes)[newId := NewLookupRow(req)]
      ensures old(DistinctNames(brandTypes)) ==> DistinctNames(brandTypes)
      ensures inventories == old(inventories) && inventoryTypes == old(inventoryTypes)
      ensures old(Valid()) ==> Valid()
    {
      var findDup := exists id :: id in brandTypes && brandTypes[id].name == req.name;
      if findDup {
        return Err(NameDuplicated);
      }
      if req.id.Some? && req.id.value != "" && req.id.value in brandTypes {
        var id := req.id.value;
        AddRowKeepsNamesDistinct(brandTypes, id, UpdatedRow(brandTypes[id], req.name, req.description, req.createdBy));
        brandTypes := brandTypes[id := UpdatedRow(brandTypes[id], req.name, req.description, req.createdBy)];
        r := Ok(id);
      } else {
        AddRowKeepsNamesDistinct(brandTypes, newId, NewLookupRow(req));
        brandTypes := brandTypes[newId := NewLookupRow(req)];
        r := Ok(newId);
      }
    }
  }

  // ---------------------------------------------------------------------
  // Properties of the tables
  // ---------------------------------------------------------------------

  /** Writing a row whose name no row holds keeps the names distinct. */
  lemma AddRowKeepsNamesDistinct<P>(table: Table<P>, id: string, row: Row<P>)
    requires !NameTaken(table, row.name)
    ensures DistinctNames(table) ==> DistinctNames(table[id := row])
  {
  }

  /** Soft-deleted rows still hold their names: after a soft delete exactly
      the same names are taken, so re-creating a deleted name is refused. */
  lemma SoftDeletedRowsReserveNames<P>(table: Table<P>, id: string, name: string)
    requires id in table
    ensures NameTaken(SoftDeleted(table, id), name) <==> NameTaken(table, name)
  {
    var t := SoftDeleted(table, id);
    if NameTaken(table, name) {
      var w :| w in table && table[w].name == name;
      assert t[w].name == name;
    }
    if NameTaken(t, name) {
      var w :| w in t && t[w].name == name;
      assert table[w].name == name;
    }
  }

  /** A soft delete hides exactly that row from the live listings and keeps
      it for lookups by id. */
  lemma SoftDeleteHidesOnlyThatRow<P>(table: Table<P>, id: string)
    requires id in table
    ensures LiveIds(SoftDeleted(table, id)) == LiveIds(table) - {id}
    ensures FindUnique(SoftDeleted(table, id), id) == Some(table[id].(deleted := true))
    ensures SoftDeleted(table, id).Keys == table.Keys
    ensures forall k :: k in table && k != id ==> SoftDeleted(table, id)[k] == table[k]
  {
  }

  /** Deleting twice leaves the table as deleting once. */
  lemma SoftDeleteIdempotent<P>(table: Table<P>, id: string)
    requires id in table
    ensures SoftDeleted(SoftDeleted(table, id), id) == SoftDeleted(table, id)
  {
  }

  /** An update by upsert leaves amount, price, type, brand, expiry date
      and creation time as they were, and makes the row live. A left-out
      description or author keeps the stored one, a `null` one clears it,
      and a given one replaces it. */
  lemma UpdateKeepsStockColumns(row: Row<InventoryData>, name: string, description: Field<string>,
                                createdBy: Field<string>)
    ensures var u := UpdatedRow(row, name, description, createdBy);
      && u.data == row.data && u.name == name && !u.deleted
      && (createdBy.Given? ==> u.createdBy == u.updatedBy == Some(createdBy.value))
      && (createdBy.Null? ==> u.createdBy.None? && u.updatedBy.None?)
      && (createdBy.Absent? ==> u.createdBy == row.createdBy && u.updatedBy == row.updatedBy)
      && (description.Given? ==> u.description == Some(description.value))
      && (description.Null? ==> u.description.None?)
      && (description.Absent? ==> u.description == row.description)
  {
  }

  /** A created row is live and its updater is its creator; a description
      or author left out or sent as `null` is stored as NULL. */
  lemma CreatedRowIsLive(req: UpsertInventoryInput, now: int)
    ensures var row := NewInventoryRow(req, now);
      && !row.deleted && row.updatedBy == row.createdBy && row.name == req.name
      && (row.createdBy.Some? <==> req.createdBy.Given?)
      && (req.createdBy.Given? ==> row.createdBy == Some(req.createdBy.value))
      && (row.description.Some? <==> req.description.Given?)
      && (req.description.Given? ==> row.description == Some(req.description.value))
      && row.data.createdAt == now
  {
  }

  /** What a page of `getInventories` holds: live rows whose names contain
      the search text, newest first, no more than the limit, and exactly the
      limit whenever enough matching rows remain after the offset. */
  lemma {:induction false} InventoryPageFacts(page: seq<Listed<InventoryData>>, table: Table<InventoryData>,
                                               listing: seq<string>, search: Option<string>, skip: nat, take: nat)
    requires Enumerates(listing, MatchingIds(table, search)) && NewestFirst(listing, table)
    requires ListsRows(page, table, Window(listing, skip, take))
    ensures forall i :: 0 <= i < |page| ==> Matches(page[i].row, search) && page[i].id in table
    ensures forall i, j :: 0 <= i < j < |page| ==> page[i].row.data.createdAt >= page[j].row.data.createdAt
    ensures |page| <= take
    ensures skip + take <= |MatchingIds(table, search)| ==> |page| == take
  {
    var w := Window(listing, skip, take);
    forall i | 0 <= i < |page| ensures Matches(page[i].row, search) && page[i].id in table {
      assert page[i].id == listing[skip + i];
      assert listing[skip + i] in MatchingIds(table, search);
    }
    forall i, j | 0 <= i < j < |page| ensures page[i].row.data.createdAt >= page[j].row.data.createdAt {
      assert w[i] == listing[skip + i] && w[j] == listing[skip + j];
    }
    EnumerationSize(listing, MatchingIds(table, search));
  }

  lemma {:induction false} EnumerationSize(ids: seq<string>, keys: set<string>)
    requires Enumerates(ids, keys)
    ensures |ids| == |keys|
    decreases |ids|
  {
    if ids != [] {
      var rest := ids[1..];
      assert Enumerates(rest, keys - {ids[0]}) by {
        forall k | k in keys - {ids[0]} ensures k in rest {
          var i :| 0 <= i < |ids| && ids[i] == k;
          assert i != 0;
          assert rest[i - 1] == k;
        }
      }
      EnumerationSize(rest, keys - {ids[0]});
    } else {
      assert forall k :: k !in keys;
      assert keys == {};
    }
  }
}

=== FILE: strings.dfy ===
/** String helpers the JavaScript code gets from its runtime: `split` on one
    character (optionally only where a look-ahead condition holds), `join`
    and substring search. */
module Strings {
  import opened Common

  /** `s.split(c)` where a `c` only separates when `active` holds of the text
      after it (the look-ahead of a split pattern). As in JavaScript, the
      empty string splits into one empty part. */
  function SplitWhere(s: string, c: char, active: string -> bool): (parts: seq<string>)
    ensures |parts| >= 1
    ensures Join(parts, c) == s
    decreases |s|
  {
    if s == [] then [""]
    else
      var rest := SplitWhere(s[1..], c, active);
      if s[0] == c && active(s[1..]) then
        assert s == [c] + s[1..];
        [""] + rest
      else
        JoinConsHead(s[0], rest, c);
        [[s[0]] + rest[0]] + rest[1..]
  }

  /** `parts.join(c)`: the empty list joins to the empty string. */
  function Join(parts: seq<string>, c: char): string
    decreases |parts|
  {
    if |parts| == 0 then ""
    else if |parts| == 1 then parts[0]
    else parts[0] + [c] + Join(parts[1..], c)
  }

  lemma JoinConsHead(x: char, parts: seq<string>, c: char)
    requires |parts| >= 1
    ensures Join([[x] + parts[0]] + parts[1..], c) == [x] + Join(parts, c)
  {
    var ps := [[x] + parts[0]] + parts[1..];
    assert ps[1..] == parts[1..];
  }

  predicate Always(rest: string) { true }

  /** `s.split(c)` for a one-character separator. */
  function Split(s: string, c: char): (parts: seq<string>)
    ensures |parts| >= 1
    ensures Join(parts, c) == s
  {
    SplitWhere(s, c, Always)
  }

  /** Splitting `a + c + b` where no `c` inside `a` is active yields `a`
      followed by the parts of `b`. */
  lemma {:induction false} SplitWhereAppend(a: string, b: string, c: char, active: string -> bool)
    requires active(b)
    requires forall i :: 0 <= i < |a| && a[i] == c ==> !active(a[i+1..] + [c] + b)
    ensures SplitWhere(a + [c] + b, c, active) == [a] + SplitWhere(b, c, active)
    decreases |a|
  {
    var s := a + [c] + b;
    if a == [] {
      assert s[1..] == b;
    } else {
      var a' := a[1..];
      TailKeepsInactive(a, b, c, active);
      SplitWhereAppend(a', b, c, active);
      assert s == [a[0]] + (a' + [c] + b);
      SplitWhereCons(a[0], a' + [c] + b, c, active);
      assert [a[0]] + a' == a;
    }
  }

  /** One step of `SplitWhere`: the first character either separates or
      joins the first part. */
  lemma SplitWhereCons(x: char, t: string, c: char, active: string -> bool)
    ensures SplitWhere([x] + t, c, active)
      == if x == c && active(t) then [""] + SplitWhere(t, c, active)
         else [[x] + SplitWhere(t, c, active)[0]] + SplitWhere(t, c, active)[1..]
  {
    assert ([x] + t)[1..] == t;
  }

  lemma TailKeepsInactive(a: string, b: string, c: char, active: string -> bool)
    requires a != []
    requires forall i :: 0 <= i < |a| && a[i] == c ==> !active(a[i+1..] + [c] + b)
    ensures forall i :: 0 <= i < |a| - 1 && a[1..][i] == c ==> !active(a[1..][i+1..] + [c] + b)
  {
    forall i | 0 <= i < |a| - 1 && a[1..][i] == c
      ensures !active(a[1..][i+1..] + [c] + b)
    {
      assert a[i+1] == c && a[i+2..] == a[1..][i+1..];
    }
  }

  /** A string without an active separator is a single part. */
  lemma {:induction false} SplitWhereWhole(a: string, c: char, active: string -> bool)
    requires forall i :: 0 <= i < |a| && a[i] == c ==> !active(a[i+1..])
    ensures SplitWhere(a, c, active) == [a]
    decreases |a|
  {
    if a != [] {
      var a' := a[1..];
      forall i | 0 <= i < |a'| && a'[i] == c
        ensures !active(a'[i+1..])
      {
        assert a[i+1] == c && a[i+2..] == a'[i+1..];
      }
      SplitWhereWhole(a', c, active);
      assert [a[0]] + a' == a;
    }
  }

  /** Splitting undoes joining when no part contains the separator. */
  lemma {:induction false} SplitJoin(parts: seq<string>, c: char)
    requires |parts| >= 1
    requires forall k :: 0 <= k < |parts| ==> c !in parts[k]
    ensures Split(Join(parts, c), c) == parts
    decreases |parts|
  {
    if |parts| == 1 {
      SplitWhereWhole(parts[0], c, Always);
    } else {
      SplitJoin(parts[1..], c);
      SplitWhereAppend(parts[0], Join(parts[1..], c), c, Always);
      assert [parts[0]] + parts[1..] == parts;
    }
  }

  /** The number of occurrences of `c` in `s`. */
  function Count(s: string, c: char): nat
    decreases |s|
  {
    if s == [] then 0 else (if s[0] == c then 1 else 0) + Count(s[1..], c)
  }

  lemma {:induction false} CountAppend(a: string, b: string, c: char)
    ensures Count(a + b, c) == Count(a, c) + Count(b, c)
    decreases |a|
  {
    if a != [] {
      assert (a + b)[1..] == a[1..] + b;
      CountAppend(a[1..], b, c);
    } else {
      assert a + b == b;
    }
  }

  /** A plain split yields one part more than there are separators. */
  lemma {:induction false} SplitCount(s: string, c: char)
    ensures |Split(s, c)| == Count(s, c) + 1
    decreases |s|
  {
    if s != [] {
      SplitCount(s[1..], c);
    }
  }

  /** `s.includes(sub)`, the substring test behind Prisma's `contains`. */
  predicate Contains(s: string, sub: string)
  {
    exists i :: 0 <= i <= |s| - |sub| && sub <= s[i..]
  }

  /** The first position at which `sub` occurs in `s` (`indexOf`). */
  function IndexOf(s: string, sub: string): (r: Option<nat>)
    ensures r.Some? ==> r.value + |sub| <= |s| && sub <= s[r.value..]
    ensures r.Some? ==> forall i :: 0 <= i < r.value ==> !(sub <= s[i..])
    ensures r.None? ==> forall i :: 0 <= i <= |s| ==> !(sub <= s[i..])
    decreases |s|
  {
    if sub <= s then Some(0)
    else if s == [] then None
    else
      var rest := IndexOf(s[1..], sub);
      assert forall i :: 1 <= i <= |s| ==> s[i..] == s[1..][i - 1..];
      if rest.Some? then Some(rest.value + 1) else None
  }

  /** `s.replace(sub, replacement)` with a string pattern: only the first occurrence
      is replaced. */
  function ReplaceFirst(s: string, sub: string, replacement: string): string
  {
    match IndexOf(s, sub)
    case None => s
    case Some(i) => s[..i] + replacement + s[i + |sub|..]
  }

  /** Replacing the prefix a string starts with by nothing leaves the rest. */
  lemma ReplaceLeadingPrefix(prefix: string, t: string)
    ensures ReplaceFirst(prefix + t, prefix, "") == t
  {
    assert prefix <= prefix + t;
    assert IndexOf(prefix + t, prefix) == Some(0);
    assert (prefix + t)[|prefix|..] == t;
  }
}

=== FILE: tokens.dfy ===
/** What a signed access token carries. Signing and verifying are done by
    the JSON Web Token library; the model passes them in as functions. */
module Tokens {
  import opened Common

  /** The payload of an access token as verification hands it back. `login`
      writes the user's name under `userName`, `tokenExpire` under
      `username`; `role` is the name of the user's group. */
  datatype AccessClaims = AccessClaims(
    role: Option<string>,
    functions: seq<string>,
    deviceId: Option<string>,
    userId: Option<string>,
    userName: Option<string>,
    username: Option<string>)

  /** JavaScript truthiness of an optional string: present and not empty. */
  predicate Truthy(v: Option<string>)
  {
    v.Some? && v.value != ""
  }
}

=== FILE: types.dfy ===
/** The input shapes of the GraphQL schema that the modelled services take.
    A JavaScript `number` is a `real`, a `Date` its millisecond timestamp.
    An optional field is a `Field` where the code treats `null` differently
    from a missing field (description and createdBy in an update, a size
    dimension), and an `Option` where it treats them alike. */
module Types {
  import opened Common

  /** `SizeInventory`. A dimension is a `number`; the model holds the text a
      template literal renders it to, since the code only ever renders it. */
  datatype SizeInventory = SizeInventory(
    weight: Field<string>,
    width: Field<string>,
    length: Field<string>,
    height: Field<string>)

  /** `UpsertInventoryInput`. */
  datatype UpsertInventoryInput = UpsertInventoryInput(
    id: Option<string>,
    name: string,
    inventoryTypeId: string,
    brandTypeId: string,
    favorite: Option<bool>,
    amount: real,
    sku: Option<string>,
    reorderLevel: Option<real>,
    size: Option<SizeInventory>,
    price: real,
    priceMember: Option<real>,
    expiryDate: Option<int>,
    description: Field<string>,
    createdBy: Field<string>,
    updatedBy: Option<string>)

  /** `UpsertTypeInventoryInput` and `UpsertBrandInventoryInput`, which have
      the same fields. */
  datatype UpsertLookupInput = UpsertLookupInput(
    id: Option<string>,
    name: string,
    description: Field<string>,
    createdBy: Field<string>,
    updatedBy: Option<string>)
}

=== FILE: upload_dto.dfy ===
/** `tranfromUploadCsv`: turns the rows of an uploaded inventory file into
    records ready for a bulk insert, stamped with the shop, the uploading
    user and the file. */
module UploadDto {
  import opened Common
  import opened Strings
  import opened Types

  /** A record handed to the bulk insert. */
  datatype UploadRecord = UploadRecord(
    name: string,
    amount: real,
    InventoryTypeId: string,
    BrandTypeId: string,
    price: real,
    priceMember: Option<real>,
    reorderLevel: Option<real>,
    sku: Option<string>,
    favorite: Option<bool>,
    size: string,
    expiryDate: Option<int>,
    shopsId: string,
    description: Field<string>,
    deleted: bool,
    createdBy: string,
    updatedBy: string,
    csvId: Option<string>,
    InventoryFileId: string)

  /** lodash `get(size, key, '0')` rendered by a template literal: '0' when
      the size is missing or the dimension is left out (the default applies
      to `undefined` only), "null" when the dimension is `null`, and the
      dimension's text otherwise. */
  function Dimension(size: Option<SizeInventory>, pick: SizeInventory -> Field<string>): string
  {
    if size.None? then "0"
    else match pick(size.value)
      case Absent => "0"
      case Null => "null"
      case Given(d) => d
  }

  function Width(s: SizeInventory): Field<string> { s.width }
  function Length(s: SizeInventory): Field<string> { s.length }
  function Height(s: SizeInventory): Field<string> { s.height }
  function Weight(s: SizeInventory): Field<string> { s.weight }

  /** The packed size `width|length|height|weight`. */
  function PackSize(size: Option<SizeInventory>): string
  {
    Dimension(size, Width) + "|" + Dimension(size, Length) + "|"
      + Dimension(size, Height) + "|" + Dimension(size, Weight)
  }

  /** The record built for one uploaded row. */
  function TransformRow(data: UpsertInventoryInput, shopsId: string, userName: string,
                        inventoryFileId: string): UploadRecord
  {
    UploadRecord(
      name := data.name + "|" + shopsId,
      amount := data.amount,
      InventoryTypeId := data.inventoryTypeId,
      BrandTypeId := data.brandTypeId,
      price := data.price,
      priceMember := data.priceMember,
      reorderLevel := data.reorderLevel,
      sku := data.sku,
      favorite := data.favorite,
      size := PackSize(data.size),
      expiryDate := data.expiryDate,
      shopsId := shopsId,
      description := data.description,
      deleted := false,
      createdBy := userName,
      updatedBy := userName,
      csvId := data.id,
      InventoryFileId := inventoryFileId)
  }

  /** `tranfromUploadCsv`: one record per row, in the order of the rows. */
  function TransformUploadCsv(datas: seq<UpsertInventoryInput>, shopsId: string, userName: string,
                              inventoryFileId: string): (records: seq<UploadRecord>)
    ensures |records| == |datas|
    ensures forall i :: 0 <= i < |datas| ==> records[i].csvId == datas[i].id
  {
    seq(|datas|, i requires 0 <= i < |datas| => TransformRow(datas[i], shopsId, userName, inventoryFileId))
  }

  /** Every record is live, stamped with the shop, the user (as creator and
      updater) and the file, copies the row's own fields unchanged, and
      carries the row's packed size. */
  lemma UploadRecordFields(datas: seq<UpsertInventoryInput>, shopsId: string, userName: string,
                           inventoryFileId: string, i: nat)
    requires i < |datas|
    ensures var r := TransformUploadCsv(datas, shopsId, userName, inventoryFileId)[i];
      var d := datas[i];
      && !r.deleted
      && r.createdBy == userName && r.updatedBy == userName
      && r.shopsId == shopsId && r.InventoryFileId == inventoryFileId
      && r.csvId == d.id
      && r.InventoryTypeId == d.inventoryTypeId && r.BrandTypeId == d.brandTypeId
      && r.amount == d.amount && r.price == d.price && r.priceMember == d.priceMember
      && r.reorderLevel == d.reorderLevel && r.sku == d.sku && r.favorite == d.favorite
      && r.expiryDate == d.expiryDate && r.description == d.description
      && r.size == PackSize(d.size)
  {
  }

  /** The stored name is the row's name and the shop joined by '|'; when
      neither holds a '|', splitting on '|' gives both back. */
  lemma UploadNameDecodes(datas: seq<UpsertInventoryInput>, shopsId: string, userName: string,
                          inventoryFileId: string, i: nat)
    requires i < |datas|
    requires '|' !in datas[i].name && '|' !in shopsId
    ensures var r := TransformUploadCsv(datas, shopsId, userName, inventoryFileId)[i];
      Split(r.name, '|') == [datas[i].name, shopsId]
  {
    var name := datas[i].name;
    assert Join([name, shopsId], '|') == name + "|" + shopsId;
    SplitJoin([name, shopsId], '|');
  }

  /** The packed size splits back into width, length, height and weight,
      each left-out dimension read as '0' and each `null` one as "null". */
  lemma PackSizeDecodes(size: Option<SizeInventory>)
    requires size.Some? ==> && WithoutBar(size.value.width) && WithoutBar(size.value.length)
                            && WithoutBar(size.value.height) && WithoutBar(size.value.weight)
    ensures Split(PackSize(size), '|')
      == [Dimension(size, Width), Dimension(size, Length), Dimension(size, Height), Dimension(size, Weight)]
  {
    var w, l, h, g := Dimension(size, Width), Dimension(size, Length), Dimension(size, Height), Dimension(size, Weight);
    JoinFour(w, l, h, g);
    SplitJoin([w, l, h, g], '|');
  }

  lemma JoinFour(w: string, l: string, h: string, g: string)
    ensures Join([w, l, h, g], '|') == w + "|" + l + "|" + h + "|" + g
  {
    var parts := [w, l, h, g];
    assert parts[1..] == [l, h, g] && [l, h, g][1..] == [h, g] && [h, g][1..] == [g];
    assert Join([h, g], '|') == h + "|" + g;
    assert Join([l, h, g], '|') == l + "|" + (h + "|" + g);
    assert Join(parts, '|') == w + "|" + (l + "|" + (h + "|" + g));
  }

  predicate WithoutBar(d: Field<string>)
  {
    d.Given? ==> '|' !in d.value
  }

  /** A row without a size, or with every dimension left out, packs to
      `0|0|0|0`; `null` dimensions pack to "null", not to the default. */
  lemma MissingSizePacksZeros()
    ensures PackSize(None) == "0|0|0|0"
    ensures PackSize(Some(SizeInventory(Absent, Absent, Absent, Absent))) == "0|0|0|0"
    ensures PackSize(Some(SizeInventory(Null, Given("2"), Absent, Null))) == "2|0|null|null"
  {
  }
}
